=== FILE: README.md ===
# Client portal core, modelled in Dafny

This project models the client-side logic of a packaging-design client
portal written in TypeScript and React. Clients follow their projects
through a seven-stage lifecycle, from "project initiation" to "completed".
They receive notifications when a project is created or changes status,
keep numbered design versions per project, and invite other companies.

The model covers:
- the notification feed and its read flags;
- the project list: view, search, status and type filters, pagination and the page-number window;
- the dashboard and sidebar figures derived from project statuses;
- design-version numbering, the latest flag, uploads and deletion;
- form validation and state changes of the invitation, new-project, password and design-draft forms.

Everything is pure functions over immutable datatypes. Remote calls are
parameters: Supabase queries, storage uploads, `createProject`. So are the
current time, `Date.now()` and the signed-in user. Each parameter says
whether the call succeeded and what it returned, and each handler's result
records what the component would show.

Modules and files:

- `common.dfy` (Common): `Option`, `Min`, `Max`.
- `seqs.dfy` (Seqs): order-preserving `filter`, `filter(...).length`, subsequences, `[...new Set(xs)]`.
- `text.dfy` (Text): ASCII `toLowerCase`/`toUpperCase`, `includes`, `String(n)`/`parseInt`, `split`/`join`, the date part of an ISO timestamp.
- `lifecycle.dfy` (ProjectData): the project record and the seven status strings in lifecycle order.
- `notifications.dfy` (NotificationFeed): src/hooks/useNotifications.ts.
- `projects.dfy` (ProjectsPage): the list logic of src/pages/Projects.tsx.
- `dashboard.dfy` (DashboardPage): src/pages/Dashboard.tsx.
- `sidebar.dfy` (SidebarNav): src/components/crm/Sidebar.tsx.
- `designs.dfy` (DesignVersions): src/hooks/useDesigns.ts.
- `invite.dfy` (InvitePage): src/pages/Invite.tsx.
- `invitations.dfy` (InvitationList): src/hooks/useInvitations.ts.
- `new_project.dfy` (NewProjectForm): src/components/NewProjectSheet.tsx.
- `settings.dfy` (PasswordDialog): the password dialog of src/pages/UpdatedSettings.tsx.
- `design_section.dfy` (DesignDraft): src/components/projects/DesignSection.tsx.

## Model

| member | source | states |
|---|---|---|
| NotificationFeed.AddNotification | src/hooks/useNotifications.ts:35-43 | The new entry goes first and is unread; it carries the draft's fields and the given id and timestamp; the rest of the feed follows unchanged. |
| NotificationFeed.OnProjectInserted | src/hooks/useNotifications.ts:56-64 | An inserted project adds exactly one "created" notification naming the project, in front of the old feed. |
| NotificationFeed.OnProjectUpdated | src/hooks/useNotifications.ts:73-86 | An update with an unchanged status leaves the feed as it was. A status change adds one status-changed notification naming the new row. |
| NotificationFeed.Apply | src/hooks/useNotifications.ts:56-86 | A change event grows the feed by one in front exactly when it notifies, and otherwise leaves it unchanged. |
| NotificationFeed.ReplayLength | src/hooks/useNotifications.ts:56-86 | After any sequence of change events, the feed has grown by exactly the number of notifying events. |
| NotificationFeed.ReplayKeepsSuffix | src/hooks/useNotifications.ts:42 | New notifications are only ever prepended: the old feed survives as the tail. |
| NotificationFeed.MarkAsRead | src/hooks/useNotifications.ts:95-101 | Entries with another id are untouched. Entries with the id become read and differ in nothing else. The length is kept. |
| NotificationFeed.MarkAllAsRead | src/hooks/useNotifications.ts:103-107 | Every entry becomes read and changes in nothing else. |
| NotificationFeed.UnreadCount | src/hooks/useNotifications.ts:109 | The unread count is at most the feed length. It is 0 exactly when every entry is read, and equals the length exactly when none is. |
| NotificationFeed.MarkAsReadIdempotent | src/hooks/useNotifications.ts:95-101 | Marking the same id twice equals marking it once. |
| NotificationFeed.MarkAllAsReadIdempotent | src/hooks/useNotifications.ts:103-107 | Marking all read twice equals doing it once. |
| NotificationFeed.MarkAsReadThenAll | src/hooks/useNotifications.ts:95-107 | Marking one id first makes no difference to marking all. |
| NotificationFeed.MarkAsReadCommutes | src/hooks/useNotifications.ts:95-101 | Marking two ids gives the same feed in either order. |
| NotificationFeed.MarkAllClearsUnread | src/hooks/useNotifications.ts:103-109 | After marking all read, the unread count is 0. |
| NotificationFeed.AddRaisesUnread | src/hooks/useNotifications.ts:35-43 | Adding a notification raises the unread count by exactly one. |
| NotificationFeed.MarkAsReadUnread | src/hooks/useNotifications.ts:95-109 | Marking an id read lowers the unread count by exactly the number of unread entries with that id. |
| NotificationFeed.MarkAsReadLowersUnread | src/hooks/useNotifications.ts:95-109 | Marking the id of an unread entry strictly lowers the unread count. |
| ProjectsPage.CurrentView | src/pages/Projects.tsx:49-51 | The in-progress and completed views are chosen by their exact paths. Every other path is the overview. |
| ProjectsPage.StatusColor | src/pages/Projects.tsx:53-64 | Unknown statuses get the grey default. Each of the seven known statuses gets a non-default colour. |
| ProjectsPage.StatusColorsDistinct | src/pages/Projects.tsx:53-64 | The seven lifecycle statuses have pairwise different badge colours. |
| ProjectsPage.ShownClient | src/pages/Projects.tsx:140 | The searched client text is the user's company when set, else the project's own client. |
| ProjectsPage.FilteredProjects | src/pages/Projects.tsx:123-155 | The result is an order-preserving subsequence of the projects. It keeps each project, with its multiplicity, exactly when the project passes the view, search, status and type criteria. |
| ProjectsPage.FilteredIsOneFilter | src/pages/Projects.tsx:123-155 | The four filters applied in sequence equal one filter by their conjunction, with an empty search and "all" acting as no filter. |
| ProjectsPage.ViewsSplitByCompletion | src/pages/Projects.tsx:125-134 | The in-progress view shows only non-completed projects and the completed view only completed ones. |
| ProjectsPage.NeutralCriteriaKeepAll | src/pages/Projects.tsx:123-155 | The overview with an empty search and both filters at "all" shows every project in order. |
| ProjectsPage.CeilDiv | src/pages/Projects.tsx:165 | The page count is the least number of pages that holds the list, and it is 0 only for an empty list. |
| ProjectsPage.Paginate | src/pages/Projects.tsx:158-167 | Page p shows at most perPage items: exactly those at positions (p-1)*perPage onwards, clamped to the list. It reports the list length and the ceiling page count. |
| ProjectsPage.PageNonEmptyIff | src/pages/Projects.tsx:158-167 | A page has items exactly when its number is at most the page count. |
| ProjectsPage.PagesUpToIsPrefix | src/pages/Projects.tsx:158-167 | The first k pages laid end to end are the first k*perPage items, clamped to the list. |
| ProjectsPage.AllPagesCoverList | src/pages/Projects.tsx:158-167 | All pages together reproduce the filtered list exactly: nothing is lost or repeated. |
| ProjectsPage.TwelveItemsTenPerPage | src/pages/Projects.tsx:158-167 | Twelve items at ten per page give two pages: ten items, then two, and a third page that is empty. |
| ProjectsPage.CaptionMatchesPage | src/pages/Projects.tsx:402 | For a page in range, the "first-last of total" caption spans exactly the items the page shows, starting at (p-1)*perPage+1. |
| ProjectsPage.PageNumbers | src/pages/Projects.tsx:181-204 | The window shows min(total pages, 5) consecutive page numbers, every one a page that exists, and 1..n when there are at most 5 pages. With more pages it starts two before the current page, clamped so that it stays within 1..total pages, whatever the current page is. It contains the current page when that exists, and centres it when the page is far from both ends. |
| ProjectsPage.SetSearchTerm | src/pages/Projects.tsx:170-172 | Typing a search term stores it and returns to page 1. The other filters and the page size are kept. |
| ProjectsPage.SetStatusFilter | src/pages/Projects.tsx:170-172 | Choosing a status stores it and returns to page 1. Everything else is kept. |
| ProjectsPage.SetTypeFilter | src/pages/Projects.tsx:170-172 | Choosing a type stores it and returns to page 1. Everything else is kept. |
| ProjectsPage.SetItemsPerPage | src/pages/Projects.tsx:175-178 | A page size chosen from the menu becomes 5, 10, 20 or 50 and the page returns to 1. The filters are kept. |
| ProjectsPage.PageSizeValues | src/pages/Projects.tsx:456-459 | The menu strings parse to the page sizes 5, 10, 20 and 50. |
| ProjectsPage.PreviousPage | src/pages/Projects.tsx:416 | "Previous" steps back one page, and from page 1 (or below) it goes to page 1. |
| ProjectsPage.NextPage | src/pages/Projects.tsx:435 | "Next" steps forward one page before the last page. From the last page, or from a page beyond it (possible after a delete, which keeps the current page), it goes to the last page. |
| ProjectsPage.FilterChangeResetsPage | src/pages/Projects.tsx:170-178 | After any search, filter or page-size change the list shows its first page. That page holds the leading items of the newly selected list and is empty exactly when that list is. |
| ProjectsPage.NavigationKeepsPageInRange | src/pages/Projects.tsx:406-446 | From a page that shows items, the first, previous, next and last buttons and every numbered button lead to a page that shows items. |
| ProjectsPage.AvailableStatuses | src/pages/Projects.tsx:213-222 | The status options are duplicate-free. In-progress lists the six open stages in order, and completed lists only "completed". The overview lists exactly the statuses some project has, in the order of their first appearance in the list. |
| ProjectsPage.ProjectTypes | src/pages/Projects.tsx:207-210 | The type options are duplicate-free and are exactly the types some project has, in the order of their first appearance in the list. |
| DashboardPage.ProjectStats | src/pages/Dashboard.tsx:27-45 | The total is the project count and equals active plus completed. In manufacturing plus ready to ship is at most active. Completed is 0 exactly when no project is completed, and active is 0 exactly when all are. |
| DashboardPage.NoProjectsNoStats | src/pages/Dashboard.tsx:27-45 | With no projects every figure is 0. |
| DashboardPage.ProjectStatsStep | src/pages/Dashboard.tsx:27-45 | One more project adds one to the total and one to exactly the figures its status belongs to: active or completed, in manufacturing for production or testing, and ready to ship for delivering. |
| DashboardPage.InManufacturingSplits | src/pages/Dashboard.tsx:31-33 | In manufacturing counts the production projects plus the testing projects. |
| DashboardPage.Progress | src/pages/Dashboard.tsx:81-92 | Progress lies between 0 and 100. Unknown statuses give 0 and known ones more than 0. It is 100 exactly for "completed". |
| DashboardPage.ProgressIncreasesAlongLifecycle | src/pages/Dashboard.tsx:81-92 | Progress strictly increases from each lifecycle stage to every later one. |
| DashboardPage.DisplayStatus | src/pages/Dashboard.tsx:95-106 | Unknown statuses are shown as they are. Known statuses get a label that is not itself a status string. |
| DashboardPage.DisplayLabelsDistinct | src/pages/Dashboard.tsx:95-106 | The seven stages have pairwise different labels. |
| DashboardPage.DisplayStatusIdempotent | src/pages/Dashboard.tsx:95-106 | Relabelling a label changes nothing. |
| DashboardPage.BadgeColor | src/pages/Dashboard.tsx:108-119 | Unknown statuses get the grey default colour. |
| DashboardPage.BadgeColorsDifferOnlyInTwoStages | src/pages/Dashboard.tsx:108-119 | The dashboard badge colours equal the project list's colours except for prototyping and production, which are swapped. |
| DashboardPage.ProgressList | src/pages/Dashboard.tsx:173 | The progress card shows the first four projects, or all of them when there are fewer. |
| DashboardPage.RecentUpdates | src/pages/Dashboard.tsx:239 | The recent-updates card shows the first three projects, or all of them when there are fewer. |
| SidebarNav.ProjectCounts | src/components/crm/Sidebar.tsx:48-54 | The total is the project count and equals in-progress plus completed. Completed is 0 exactly when no project is completed. |
| SidebarNav.CountsAgreeWithDashboard | src/components/crm/Sidebar.tsx:48-54 | The sidebar's in-progress and completed counts equal the dashboard's active and completed figures. |
| SidebarNav.WorkspaceItems | src/components/crm/Sidebar.tsx:57-77 | There are six workspace entries. The third, "Projects", has Overview, In Progress and Completed sub-items carrying the total, in-progress and completed counts. No other entry has sub-items. |
| SidebarNav.SubItemCountsMatchLinkedViews | src/components/crm/Sidebar.tsx:57-77 | Each Projects sub-item's count equals the number of projects its link shows with no search or filter. |
| SidebarNav.Toggle | src/components/crm/Sidebar.tsx:108-114 | Toggling flips whether the title is open and leaves every other title open as often as before. A closed title is appended; an open one is removed, keeping the order of the rest. |
| SidebarNav.ToggleKeepsNoDuplicates | src/components/crm/Sidebar.tsx:108-114 | Toggling never makes a title appear twice. |
| SidebarNav.ToggleTwiceFromClosed | src/components/crm/Sidebar.tsx:108-114 | Opening a closed title and closing it again restores the list exactly. |
| SidebarNav.ToggleTwiceSameMembers | src/components/crm/Sidebar.tsx:108-114 | Toggling the same title twice leaves the set of open titles unchanged. |
| SidebarNav.ToggleAllNoDuplicates | src/components/crm/Sidebar.tsx:108-114 | Any sequence of toggles from a duplicate-free list keeps it duplicate-free. |
| SidebarNav.FromEmptyNoDuplicates | src/components/crm/Sidebar.tsx:106-114 | Starting from no open items, no title is ever open twice. |
| DesignVersions.MaxVersion | src/hooks/useDesigns.ts:91-97 | The highest version number is that of some version and at least that of every version. There is none only for no versions. |
| DesignVersions.NextVersionNumber | src/hooks/useDesigns.ts:90-101 | The next number is 1 when the lookup fails or finds nothing. Otherwise it exceeds every existing number of the project and user, and unless it is 1 it is one more than an existing number. |
| DesignVersions.Demote | src/hooks/useDesigns.ts:103-108 | Versions of the project and user lose the latest flag and change in nothing else. All other versions are untouched. |
| DesignVersions.StoredDescription | src/hooks/useDesigns.ts:116 | An empty description is stored as null and any other is stored as given. |
| DesignVersions.UploadRows | src/hooks/useDesigns.ts:128-159 | One file row for each attachment whose upload and metadata insert succeeded. The rows are in attachment order and all belong to the new version and user. A failed upload does not stop the others from being recorded. |
| DesignVersions.AllUploadsRecorded | src/hooks/useDesigns.ts:128-159 | When every upload succeeds, the rows describe exactly the attachments, in order. |
| DesignVersions.CreateDesignVersion | src/hooks/useDesigns.ts:81-172 | No user gives null and no change. A version is returned exactly when the insert succeeds, with the next number and the latest flag. The earlier versions keep their places. The user's versions of the project lose only their latest flag when the demotion succeeds and are unchanged when it fails, and all other versions are untouched. After a successful demotion exactly the new version is latest, or none if the insert failed. |
| DesignVersions.FailedDemotionKeepsOldLatest | src/hooks/useDesigns.ts:103-126 | The demotion's result is not checked. If it fails and the insert succeeds, the old latest version stays latest beside the new one. |
| DesignVersions.OwnedAfterDemote | src/hooks/useDesigns.ts:103-108 | Demoting does not change which versions belong to the project and user, nor their order. |
| DesignVersions.NextAfterNumbering | src/hooks/useDesigns.ts:90-101 | If a project's versions are numbered 1..k, the next number is k+1. |
| DesignVersions.CreateExtendsNumbering | src/hooks/useDesigns.ts:90-122 | A fully successful create on versions numbered 1..k adds version k+1 as the only latest one. |
| DesignVersions.CreateAllNumbersInOrder | src/hooks/useDesigns.ts:90-122 | n successful creates on a project with no versions yield version numbers 1..n in creation order, with only the last latest. |
| DesignVersions.LatestDesign | src/hooks/useDesigns.ts:244-246 | The result is none exactly when no design is flagged latest. Otherwise it is the first flagged design. |
| DesignVersions.PastDesigns | src/hooks/useDesigns.ts:248-250 | The past designs are exactly the designs not flagged latest, in order. |
| DesignVersions.PastAndLatestPartition | src/hooks/useDesigns.ts:244-250 | Past designs and latest-flagged designs together account for every design. |
| DesignVersions.LatestAfterCreate | src/hooks/useDesigns.ts:103-162 | After a create whose demotion and insert succeed, the project's latest design is the new version. Its past designs are all the earlier versions. |
| DesignVersions.DeleteDesignVersion | src/hooks/useDesigns.ts:206-242 | Deleting removes exactly the versions with that id and user, and the files of that version and user. Every other row stays, in order, as many times as before. A failed file delete keeps the files, a failed version delete keeps the versions, and no user changes nothing. |
| DesignVersions.UpdateDesignVersion | src/hooks/useDesigns.ts:174-204 | On success the versions with that id and user get the given name and description and nothing else changes. The updated row is returned exactly when one row matched. On failure nothing changes and null is returned. |
| InvitePage.SendInvite | src/pages/Invite.tsx:56-93 | With a field missing, the list and form are unchanged and an error is reported. Otherwise a pending invite with the form's fields and today's date is prepended and the form is cleared. Its id is the decimal numeral of the old length plus one. |
| InvitePage.StatusCountsCoverList | src/pages/Invite.tsx:222-242 | The accepted, pending and declined counts add up to the number of invites. |
| InvitePage.SendAddsOnePending | src/pages/Invite.tsx:74-83 | Sending raises the pending count by one and leaves the other counts unchanged. |
| InvitePage.SampleIdsWellFormed | src/pages/Invite.tsx:29-54 | The three sample invites have distinct ids "1" to "3". |
| InvitePage.SendKeepsIdsWellFormed | src/pages/Invite.tsx:75-83 | While invites are only added by sending, ids stay distinct numerals between 1 and the list length. |
| InvitePage.Initials | src/pages/Invite.tsx:131-133 | The initials have at most one character per space-separated word and no lower-case ASCII letter. |
| InvitePage.HeadsAppend | src/pages/Invite.tsx:132 | Taking first letters distributes over joining lists of words. |
| InvitePage.InitialsOfWord | src/pages/Invite.tsx:131-133 | A single word gives its upper-cased first letter. |
| InvitePage.InitialsOfEmpty | src/pages/Invite.tsx:131-133 | An empty name has no initials: its one empty piece has no first character, and `join('')` renders the undefined as nothing. |
| InvitePage.InitialsSkipEmptyPieces | src/pages/Invite.tsx:131-133 | A leading, trailing or doubled space adds no initial, so "ann  lee" gives the same initials as "ann lee". |
| InvitePage.InitialsOfTwoParts | src/pages/Invite.tsx:131-133 | The initials of "a b" are the initials of a followed by those of b. |
| InvitePage.InitialsOfTwoWords | src/pages/Invite.tsx:131-133 | A first and a last name give their two upper-cased first letters. |
| InvitationList.CreateInvitation | src/hooks/useInvitations.ts:39-76 | Sent exactly when there is a user and the insert succeeds. The new pending row then goes in front of the unchanged list. Otherwise the list is unchanged. |
| InvitationList.CreateAddsOnePending | src/hooks/useInvitations.ts:39-76 | A sent invitation raises the pending count by one and leaves the accepted and declined counts alone. An invitation not sent changes no count. |
| InvitationList.UpdateInvitationStatus | src/hooks/useInvitations.ts:78-101 | The length is kept. On success the rows with that id take the new status and the others are untouched. With no user or a failure the list is unchanged. |
| InvitationList.UpdateNeverAddsPending | src/hooks/useInvitations.ts:78-92 | A status update never increases the number of pending invitations. |
| InvitationList.UpdateIdempotent | src/hooks/useInvitations.ts:78-92 | Applying the same update twice equals applying it once. |
| InvitationList.UpdatesOfDifferentIdsCommute | src/hooks/useInvitations.ts:78-92 | Successful updates of two different ids can be applied in either order. |
| InvitationList.UpdatedRowsCarryStatus | src/hooks/useInvitations.ts:89-92 | After a successful update, the rows with that id and the new status are exactly the rows with that id. |
| NewProjectForm.InitialForm | src/components/NewProjectSheet.tsx:24-30 | The opening form is empty except the client, which is the company or "ING BANK" and never empty. |
| NewProjectForm.DueDate | src/components/NewProjectSheet.tsx:53 | The due date is the date part of the UTC ISO string of the chosen `Date`, or of the current time's UTC ISO string when no day was chosen, and never contains a "T". |
| NewProjectForm.PayloadOf | src/components/NewProjectSheet.tsx:48-54 | The payload carries the form's name, type and client, the status "project initiation" and the computed due date. |
| NewProjectForm.Submit | src/components/NewProjectSheet.tsx:34-81 | An incomplete form sends nothing and changes nothing. A complete form sends its payload. Only a successful create resets the form and closes the sheet; any other outcome leaves the state unchanged. |
| NewProjectForm.SentProjectsStartAtInitiation | src/components/NewProjectSheet.tsx:52 | Every sent project starts at the first lifecycle stage. |
| NewProjectForm.FreshFormNeedsNameAndType | src/components/NewProjectSheet.tsx:24-45 | A fresh or reset form is rejected. It becomes acceptable exactly when a name and a type are filled in. |
| NewProjectForm.SecondSubmitRejected | src/components/NewProjectSheet.tsx:58-72 | Submitting the reset form right after a successful create is rejected and changes nothing. |
| NewProjectForm.SetField | src/components/NewProjectSheet.tsx:83-85 | Editing a text field changes that field only. |
| NewProjectForm.SetDueDate | src/components/NewProjectSheet.tsx:83-85 | Picking a due date changes the due date only. |
| NewProjectForm.DescriptionNotSent | src/components/NewProjectSheet.tsx:48-54 | The description never affects the payload. |
| NewProjectForm.LastEditWins | src/components/NewProjectSheet.tsx:83-85 | Editing a field twice keeps only the second value. |
| PasswordDialog.ChangePassword | src/pages/UpdatedSettings.tsx:31-70 | Any empty field gives the missing-fields error before the other checks. Filled but different passwords give the mismatch error, and matching ones under 8 characters the length error. Success clears all fields and closes the dialog; any error leaves the dialog unchanged. |
| PasswordDialog.ChangedIff | src/pages/UpdatedSettings.tsx:31-63 | The change succeeds exactly when all fields are filled, the new password matches its confirmation and it is at least 8 characters long. |
| PasswordDialog.ChangeThenMissing | src/pages/UpdatedSettings.tsx:65-69 | Right after a success, the cleared dialog reports missing fields. |
| PasswordDialog.ErrorsAreStable | src/pages/UpdatedSettings.tsx:31-57 | A rejected attempt, retried unchanged, is rejected the same way. |
| DesignDraft.SelectFiles | src/components/projects/DesignSection.tsx:20-26 | Picked files come after the existing attachments, in order. The name and description are unchanged. |
| DesignDraft.DropIndex | src/components/projects/DesignSection.tsx:31 | Filtering out position i removes exactly that element when i is in range, and changes nothing otherwise. |
| DesignDraft.RemoveAttachment | src/components/projects/DesignSection.tsx:28-33 | An in-range removal shrinks the list by one and shifts the later attachments down by one, keeping their order. An out-of-range index changes nothing. The name and description are kept. |
| DesignDraft.SetName | src/components/projects/DesignSection.tsx:65 | Editing the name leaves the description and attachments unchanged. |
| DesignDraft.SetDescription | src/components/projects/DesignSection.tsx:76 | Editing the description leaves the name and attachments unchanged. |
| DesignDraft.RemoveUndoesSelect | src/components/projects/DesignSection.tsx:20-33 | Removing the file just picked restores the draft. |
| DesignDraft.SelectTwice | src/components/projects/DesignSection.tsx:20-26 | Picking files in two batches equals picking them in one. |
| Text.IncludesIffOccurs | src/pages/Projects.tsx:139-140 | `includes` holds exactly when the term occurs at some position; the empty term is included everywhere. |
| Text.ParseNatToString | src/pages/Invite.tsx:75 | The decimal numeral of n parses back to n. |
| Text.JoinSplit | src/pages/Invite.tsx:132 | Splitting on a separator and joining with it gives back the string. |
| Text.SplitPieceCount | src/pages/Invite.tsx:132 | Splitting gives one more piece than there are separators. |
| Text.DatePart | src/pages/Invite.tsx:80 | The date part is the longest prefix before the first "T". |
| Seqs.Dedup | src/pages/Projects.tsx:208 | De-duplicating keeps each value once and loses no value. Values come in the order of their first occurrence. |

## Left out

- Toasts, console logging, loading flags, rendering and page titles: the handlers return an outcome value instead of showing a toast.
- The realtime subscription's setup and teardown (src/hooks/useNotifications.ts:46-93) is not modelled. Its callbacks take change events as explicit inputs.
- Supabase queries, storage and `createProject` are not modelled: their results are parameters. The model does not cover fetch ordering (`order('version_number' …)`, `order('created_at' …)`), the `fetchDesigns` refresh, or what the server writes to columns such as `created_at`.
- The notification id and timestamp (`Date.now()`, `new Date()`) are a parameter `Stamp`. Clock readings elsewhere are ISO-string or number parameters.
- Text.Lower: only ASCII letters change case, because JavaScript's Unicode case tables are out of scope.
- Text.Upper: only ASCII letters change case, for the same reason.
- String lengths and indices count characters, not UTF-16 code units. This matters for characters outside the Basic Multilingual Plane in two places. One is PasswordDialog.ChangePassword's 8-character rule. The other is InvitePage.Initials: `n[0]` takes one code unit, which for such a character is a lone high surrogate, while the model takes the whole character.
- The search in Projects.tsx matches the user's company when it is set, not each project's client. The model follows the code: ShownClient and MatchesSearch use `company || client`.
- `formatFileSize` (src/components/projects/DesignSection.tsx:35-41) uses logarithms and floating point.
- The design annotations and concept dialogs of Projects.tsx, the edit/delete project dialogs, and the other pages and hooks are not modelled.
- DesignVersions.UpdateDesignVersion: a successful update returns the first matching row whenever exactly one row matches. Primary keys are unique, so the several-rows error of `.single()` is not distinguished further.
- ProjectsPage.SetItemsPerPage: requires the value to be one of the four menu options, the only values the select offers.
- InvitationList.CreateInvitation: assumes the backend returns the row as inserted, with a fresh id.
- NewProjectForm.DueDate: takes the chosen day already converted by `toISOString()`, which renders the calendar's local-midnight `Date` in UTC. That conversion happens outside the model. East of UTC the date sent is therefore the day before the one picked, and the "today" fallback is the UTC date rather than the local one.
- InvitePage.SendInvite: the one-second simulated wait in `handleSendInvite` (src/pages/Invite.tsx:72) is not modelled, so a send is one atomic step. In the app the new invite uses the fields and list length read when the handler starts, and the form is cleared after the wait, so anything typed during that second is lost. The button is disabled while loading, so no second send can start in between.

=== FILE: common.dfy ===
/** Small shared vocabulary: an optional value and integer clamps. */
module Common {

  /** A value that may be absent (JavaScript's `undefined`/`null`). */
  datatype Option<+T> = None | Some(value: T)

  function Min(a: int, b: int): (r: int)
    ensures r <= a && r <= b
    ensures r == a || r == b
  {
    if a <= b then a else b
  }

  function Max(a: int, b: int): (r: int)
    ensures r >= a && r >= b
    ensures r == a || r == b
  {
    if a >= b then a else b
  }
}

=== FILE: dashboard.dfy ===
/**
 The derived figures of src/pages/Dashboard.tsx: the stat cards, the
 status-to-progress and status-to-label maps, the badge colours and the
 two short lists taken from the front of the project list.
 */
module DashboardPage {
  import opened Common
  import Seqs
  import opened ProjectData
  import ProjectsPage

  datatype Stats = Stats(
    totalProjects: nat,
    activeProjects: nat,
    completedProjects: nat,
    inManufacturing: nat,
    readyToShip: nat)

  predicate InManufacturing(p: Project)
  {
    p.status == Production || p.status == Testing
  }

  predicate ReadyToShip(p: Project)
  {
    p.status == Delivering
  }

  /** `getProjectStats`. Active and completed split the projects; the
      manufacturing and shipping figures are disjoint parts of the active ones. */
  function ProjectStats(projects: seq<Project>): (s: Stats)
    ensures s.totalProjects == |projects|
    ensures s.activeProjects + s.completedProjects == s.totalProjects
    ensures s.inManufacturing + s.readyToShip <= s.activeProjects
    ensures s.completedProjects == 0 <==> forall i :: 0 <= i < |projects| ==> projects[i].status != Completed
    ensures s.activeProjects == 0 <==> forall i :: 0 <= i < |projects| ==> projects[i].status == Completed
  {
    Seqs.CountComplement(projects, IsOpen, IsCompleted);
    Seqs.CountDisjointWithin(projects, InManufacturing, ReadyToShip, IsOpen);
    Seqs.CountZeroIff(projects, IsCompleted);
    Seqs.CountZeroIff(projects, IsOpen);
    Stats(
      |projects|,
      Seqs.Count(projects, IsOpen),
      Seqs.Count(projects, IsCompleted),
      Seqs.Count(projects, InManufacturing),
      Seqs.Count(projects, ReadyToShip))
  }

  /** With no projects every figure is zero. */
  lemma NoProjectsNoStats()
    ensures ProjectStats([]) == Stats(0, 0, 0, 0, 0)
  {
  }

  /** One more project adds one to the total and one to exactly the
      figures its status belongs to: active or completed, in manufacturing
      for production and testing, ready to ship for delivering. Together
      with NoProjectsNoStats this fixes every figure of every list. */
  lemma ProjectStatsStep(projects: seq<Project>, p: Project)
    ensures var before, after := ProjectStats(projects), ProjectStats(projects + [p]);
            && after.totalProjects == before.totalProjects + 1
            && after.activeProjects == before.activeProjects + (if p.status != Completed then 1 else 0)
            && after.completedProjects == before.completedProjects + (if p.status == Completed then 1 else 0)
            && after.inManufacturing ==
               before.inManufacturing + (if p.status == Production || p.status == Testing then 1 else 0)
            && after.readyToShip == before.readyToShip + (if p.status == Delivering then 1 else 0)
  {
    var s := projects + [p];
    assert s[..|s| - 1] == projects;
    assert s[|s| - 1] == p;
    Seqs.CountLast(s, IsOpen);
    Seqs.CountLast(s, IsCompleted);
    Seqs.CountLast(s, InManufacturing);
    Seqs.CountLast(s, ReadyToShip);
  }

  /** The manufacturing figure is the production count plus the testing count. */
  lemma InManufacturingSplits(projects: seq<Project>)
    ensures ProjectStats(projects).inManufacturing
            == Seqs.Count(projects, (p: Project) => p.status == Production)
             + Seqs.Count(projects, (p: Project) => p.status == Testing)
  {
    Seqs.CountDisjointUnion(projects, (p: Project) => p.status == Production,
                            (p: Project) => p.status == Testing, InManufacturing);
  }

  /** `getProjectProgress`: percent complete for a status. */
  function Progress(status: string): (pct: int)
    ensures 0 <= pct <= 100
    ensures !IsKnownStatus(status) ==> pct == 0
    ensures IsKnownStatus(status) ==> pct > 0
    ensures pct == 100 <==> status == Completed
  {
    if status == Initiation then 10
    else if status == DesignDevelopment then 30
    else if status == Prototyping then 50
    else if status == Testing then 70
    else if status == Production then 85
    else if status == Delivering then 95
    else if status == Completed then 100
    else 0
  }

  /** Progress rises strictly along the lifecycle. */
  lemma ProgressIncreasesAlongLifecycle()
    ensures forall i, j :: 0 <= i < j < |Stages| ==> Progress(Stages[i]) < Progress(Stages[j])
  {
  }

  /** `getDisplayStatus`: the short label for a status. */
  function DisplayStatus(status: string): (shown: string)
    ensures !IsKnownStatus(status) ==> shown == status
    ensures IsKnownStatus(status) ==> !IsKnownStatus(shown)
  {
    if status == Initiation then "Initiation"
    else if status == DesignDevelopment then "Design"
    else if status == Prototyping then "Prototyping"
    else if status == Testing then "Testing"
    else if status == Production then "Manufacturing"
    else if status == Delivering then "Shipping"
    else if status == Completed then "Complete"
    else status
  }

  /** Different stages get different labels. */
  lemma DisplayLabelsDistinct()
    ensures forall i, j :: 0 <= i < j < |Stages| ==> DisplayStatus(Stages[i]) != DisplayStatus(Stages[j])
  {
  }

  /** A label is not itself a status, so relabelling a label changes nothing. */
  lemma DisplayStatusIdempotent(status: string)
    ensures DisplayStatus(DisplayStatus(status)) == DisplayStatus(status)
  {
  }

  /** The dashboard's own badge colours. */
  function BadgeColor(status: string): (c: string)
    ensures !IsKnownStatus(status) ==> c == ProjectsPage.DefaultColor
  {
    if status == Initiation then "bg-blue-100 text-blue-800"
    else if status == DesignDevelopment then "bg-purple-100 text-purple-800"
    else if status == Prototyping then "bg-indigo-100 text-indigo-800"
    else if status == Testing then "bg-yellow-100 text-yellow-800"
    else if status == Production then "bg-orange-100 text-orange-800"
    else if status == Delivering then "bg-cyan-100 text-cyan-800"
    else if status == Completed then "bg-green-100 text-green-800"
    else ProjectsPage.DefaultColor
  }

  /** The dashboard and the projects page colour statuses alike except that
      prototyping and production swap colours. */
  lemma BadgeColorsDifferOnlyInTwoStages(status: string)
    ensures BadgeColor(status) != ProjectsPage.StatusColor(status) <==> status == Prototyping || status == Production
    ensures BadgeColor(Prototyping) == ProjectsPage.StatusColor(Production)
    ensures BadgeColor(Production) == ProjectsPage.StatusColor(Prototyping)
  {
  }

  /** The first `n` projects, or all of them when there are fewer. */
  function Take(projects: seq<Project>, n: nat): (r: seq<Project>)
    ensures |r| == Min(n, |projects|)
    ensures r <= projects
  {
    projects[..Min(n, |projects|)]
  }

  /** The progress card lists the first four projects. */
  function ProgressList(projects: seq<Project>): (r: seq<Project>)
    ensures |r| <= 4 && r <= projects
    ensures |projects| >= 4 ==> |r| == 4
    ensures |projects| < 4 ==> r == projects
  {
    Take(projects, 4)
  }

  /** The recent-updates card lists the first three projects. */
  function RecentUpdates(projects: seq<Project>): (r: seq<Project>)
    ensures |r| <= 3 && r <= projects
    ensures |projects| >= 3 ==> |r| == 3
    ensures |projects| < 3 ==> r == projects
  {
    Take(projects, 3)
  }
}

=== FILE: design_section.dfy ===
/**
 One design being drafted in src/components/projects/DesignSection.tsx:
 its name, its description and the files attached to it. Every handler
 hands the parent a copy of the draft with one part replaced.
 */
module DesignDraft {
  import DesignVersions

  type Attachment = DesignVersions.Attachment

  datatype Draft = Draft(name: string, description: string, attachments: seq<Attachment>)

  /** `handleFileSelect`: the picked files go after the existing ones. */
  function SelectFiles(d: Draft, files: seq<Attachment>): (r: Draft)
    ensures r.name == d.name && r.description == d.description
    ensures |r.attachments| == |d.attachments| + |files|
    ensures r.attachments[..|d.attachments|] == d.attachments
    ensures r.attachments[|d.attachments|..] == files
  {
    d.(attachments := d.attachments + files)
  }

  /** `s.filter((_, i) => i !== index)`, element by element from the end. */
  function DropIndex<T>(s: seq<T>, index: int): (r: seq<T>)
    ensures 0 <= index < |s| ==> r == s[..index] + s[index + 1..]
    ensures !(0 <= index < |s|) ==> r == s
  {
    if s == [] then []
    else
      var k := |s| - 1;
      var rest := DropIndex(s[..k], index);
      if k == index then
        assert s[..k] == s[..index] + s[index + 1..];
        rest
      else
        assert s == s[..k] + [s[k]];
        if 0 <= index < k then
          assert s[index + 1..] == s[index + 1..k] + [s[k]];
          rest + [s[k]]
        else
          rest + [s[k]]
  }

  /** `removeAttachment`. */
  function RemoveAttachment(d: Draft, index: int): (r: Draft)
    ensures r.name == d.name && r.description == d.description
    ensures 0 <= index < |d.attachments| ==>
              && |r.attachments| == |d.attachments| - 1
              && (forall i :: 0 <= i < index ==> r.attachments[i] == d.attachments[i])
              && (forall i :: index <= i < |r.attachments| ==> r.attachments[i] == d.attachments[i + 1])
    ensures !(0 <= index < |d.attachments|) ==> r == d
  {
    d.(attachments := DropIndex(d.attachments, index))
  }

  /** The name input. */
  function SetName(d: Draft, name: string): (r: Draft)
    ensures r.name == name
    ensures r.description == d.description && r.attachments == d.attachments
  {
    d.(name := name)
  }

  /** The description input. */
  function SetDescription(d: Draft, description: string): (r: Draft)
    ensures r.description == description
    ensures r.name == d.name && r.attachments == d.attachments
  {
    d.(description := description)
  }

  /** Removing the file just picked restores the draft. */
  lemma RemoveUndoesSelect(d: Draft, f: Attachment)
    ensures RemoveAttachment(SelectFiles(d, [f]), |d.attachments|) == d
  {
    var s := SelectFiles(d, [f]).attachments;
    assert s[..|d.attachments|] == d.attachments;
  }

  /** Picking files in two batches is picking them in one. */
  lemma SelectTwice(d: Draft, a: seq<Attachment>, b: seq<Attachment>)
    ensures SelectFiles(SelectFiles(d, a), b) == SelectFiles(d, a + b)
  {
    assert d.attachments + a + b == d.attachments + (a + b);
  }
}

=== FILE: designs.dfy ===
/**
 Design-version bookkeeping of src/hooks/useDesigns.ts. The two tables a
 user's designs live in (`design_versions` and `version_files`) are a
 `Store`; each remote step of a handler (the version lookup, the demotion
 of older versions, the insert, each upload and each metadata insert)
 succeeds or fails according to a parameter, as the backend decides.
 */
module DesignVersions {
  import opened Common
  import Seqs
  import Text

  datatype DesignVersion = DesignVersion(
    id: string,
    projectId: string,
    name: string,
    description: Option<string>,
    versionNumber: int,
    isLatest: bool,
    userId: string)

  datatype VersionFile = VersionFile(
    id: string,
    versionId: string,
    fileName: string,
    fileSize: nat,
    fileType: string,
    fileUrl: string,
    userId: string)

  datatype Store = Store(versions: seq<DesignVersion>, files: seq<VersionFile>)

  /** A file picked in the browser. */
  datatype Attachment = Attachment(name: string, size: nat, fileType: string)

  /** The argument of `createDesignVersion`; an absent description is `""`. */
  datatype DesignData = DesignData(projectId: string, name: string, description: string, attachments: seq<Attachment>)

  /** What happened to one attachment: whether the storage upload succeeded,
      the clock reading used in its path, and the id of its metadata row
      (`None` when that insert failed, which the hook ignores). */
  datatype UploadAttempt = UploadAttempt(uploaded: bool, startedAt: nat, rowId: Option<string>)

  /** The outcomes of the remote calls one `createDesignVersion` makes.
      `newId` is the id of the inserted version, `None` when the insert fails;
      `upload(k)` is the outcome for the k-th attachment. */
  datatype CreateEnv = CreateEnv(
    lookupOk: bool,
    demoteOk: bool,
    newId: Option<string>,
    upload: nat -> UploadAttempt,
    publicUrlBase: string)

  datatype CreateResult = CreateResult(store: Store, created: Option<DesignVersion>)

  /** The rows every query of the hook restricts itself to. */
  predicate Owns(v: DesignVersion, projectId: string, userId: string)
  {
    v.projectId == projectId && v.userId == userId
  }

  function Owned(vs: seq<DesignVersion>, projectId: string, userId: string): seq<DesignVersion>
  {
    Seqs.Filter(vs, (v: DesignVersion) => Owns(v, projectId, userId))
  }

  /** The highest version number, or `None` for no versions. */
  function MaxVersion(vs: seq<DesignVersion>): (r: Option<int>)
    ensures r.None? <==> vs == []
    ensures r.Some? ==> exists i :: 0 <= i < |vs| && vs[i].versionNumber == r.value
    ensures r.Some? ==> forall i :: 0 <= i < |vs| ==> vs[i].versionNumber <= r.value
  {
    if vs == [] then None
    else
      var last := vs[|vs| - 1].versionNumber;
      match MaxVersion(vs[..|vs| - 1])
      case None => Some(last)
      case Some(m) => Some(Max(m, last))
  }

  /** The number the new version gets: one more than the highest existing
      number, or 1 when the lookup failed, found nothing, or found 0 (which
      the truthiness test treats as missing). */
  function NextVersionNumber(vs: seq<DesignVersion>, projectId: string, userId: string, lookupOk: bool): (n: int)
    ensures !lookupOk || Owned(vs, projectId, userId) == [] ==> n == 1
    ensures lookupOk ==>
              forall i :: 0 <= i < |Owned(vs, projectId, userId)| ==>
                Owned(vs, projectId, userId)[i].versionNumber < n
    ensures lookupOk && n != 1 ==>
              exists i :: 0 <= i < |Owned(vs, projectId, userId)| &&
                Owned(vs, projectId, userId)[i].versionNumber == n - 1
  {
    if !lookupOk then 1
    else
      match MaxVersion(Owned(vs, projectId, userId))
      case None => 1
      case Some(m) => if m != 0 then m + 1 else 1
  }

  /** Marks every version of the project and user as not latest. */
  function Demote(vs: seq<DesignVersion>, projectId: string, userId: string): (r: seq<DesignVersion>)
    ensures |r| == |vs|
    ensures forall i :: 0 <= i < |vs| ==>
              r[i] == if Owns(vs[i], projectId, userId) then vs[i].(isLatest := false) else vs[i]
  {
    seq(|vs|, i requires 0 <= i < |vs| =>
      if Owns(vs[i], projectId, userId) then vs[i].(isLatest := false) else vs[i])
  }

  /** `description || null`. */
  function StoredDescription(d: string): (r: Option<string>)
    ensures r.None? <==> d == ""
    ensures r.Some? ==> r.value == d
  {
    if d == "" then None else Some(d)
  }

  /** The storage key `<project>/designs/<version>/<millis>-<file name>`. */
  function StoragePath(projectId: string, versionId: string, startedAt: nat, fileName: string): string
  {
    projectId + "/designs/" + versionId + "/" + Text.NatToString(startedAt) + "-" + fileName
  }

  predicate Recorded(a: UploadAttempt)
  {
    a.uploaded && a.rowId.Some?
  }

  /** The number of the first `n` attempts that left a file row. */
  function RecordedCount(upload: nat -> UploadAttempt, n: nat): nat
  {
    if n == 0 then 0
    else RecordedCount(upload, n - 1) + if Recorded(upload(n - 1)) then 1 else 0
  }

  function FileRow(projectId: string, versionId: string, userId: string, file: Attachment,
                   a: UploadAttempt, publicUrlBase: string): VersionFile
    requires a.rowId.Some?
  {
    VersionFile(a.rowId.value, versionId, file.name, file.size, file.fileType,
                publicUrlBase + StoragePath(projectId, versionId, a.startedAt, file.name), userId)
  }

  /** The attachment a file row describes. */
  function Source(f: VersionFile): Attachment
  {
    Attachment(f.fileName, f.fileSize, f.fileType)
  }

  function Sources(rows: seq<VersionFile>): (r: seq<Attachment>)
    ensures |r| == |rows|
    ensures forall i :: 0 <= i < |rows| ==> r[i] == Source(rows[i])
  {
    seq(|rows|, i requires 0 <= i < |rows| => Source(rows[i]))
  }

  /** The file rows the upload loop leaves behind: one per attachment whose
      upload and metadata insert both succeeded, in attachment order; a
      failed upload is skipped and the loop goes on. */
  function UploadRows(projectId: string, versionId: string, userId: string, files: seq<Attachment>,
                      upload: nat -> UploadAttempt, publicUrlBase: string): (rows: seq<VersionFile>)
    ensures |rows| == RecordedCount(upload, |files|)
    ensures Seqs.IsSubsequence(Sources(rows), files)
    ensures forall i :: 0 <= i < |rows| ==> rows[i].versionId == versionId && rows[i].userId == userId
    ensures forall k :: 0 <= k < |files| && Recorded(upload(k)) ==>
              FileRow(projectId, versionId, userId, files[k], upload(k), publicUrlBase) in rows
  {
    if files == [] then []
    else
      var k := |files| - 1;
      var init := files[..k];
      var rest := UploadRows(projectId, versionId, userId, init, upload, publicUrlBase);
      assert forall j :: 0 <= j < k ==> init[j] == files[j];
      if Recorded(upload(k)) then
        var row := FileRow(projectId, versionId, userId, files[k], upload(k), publicUrlBase);
        assert Sources(rest + [row])[..|rest|] == Sources(rest);
        assert files[..k] == init;
        rest + [row]
      else
        assert files[..|files| - 1] == init;
        rest
  }

  lemma SourcesAppend(rows: seq<VersionFile>, row: VersionFile)
    ensures Sources(rows + [row]) == Sources(rows) + [Source(row)]
  {
  }

  /** A row describes the attachment it was made for. */
  lemma SourceOfRow(projectId: string, versionId: string, userId: string, f: Attachment, a: UploadAttempt, base: string)
    requires a.rowId.Some?
    ensures Source(FileRow(projectId, versionId, userId, f, a, base)) == f
  {
  }

  /** When every attempt succeeds, every attachment gets its row, in order. */
  lemma {:induction false} AllUploadsRecorded(projectId: string, versionId: string, userId: string,
                                              files: seq<Attachment>, upload: nat -> UploadAttempt, base: string)
    requires forall k :: 0 <= k < |files| ==> Recorded(upload(k))
    ensures Sources(UploadRows(projectId, versionId, userId, files, upload, base)) == files
  {
    if files != [] {
      var k := |files| - 1;
      var init := files[..k];
      assert files == init + [files[k]];
      AllUploadsRecorded(projectId, versionId, userId, init, upload, base);
      var rest := UploadRows(projectId, versionId, userId, init, upload, base);
      assert Recorded(upload(k));
      var row := FileRow(projectId, versionId, userId, files[k], upload(k), base);
      assert UploadRows(projectId, versionId, userId, files, upload, base) == rest + [row];
      SourcesAppend(rest, row);
      SourceOfRow(projectId, versionId, userId, files[k], upload(k), base);
      assert Sources(rest + [row]) == init + [files[k]];

    }
  }

  /** `createDesignVersion`. */
  function CreateDesignVersion(store: Store, user: Option<string>, data: DesignData, env: CreateEnv): (r: CreateResult)
    ensures user.None? ==> r == CreateResult(store, None)
    ensures r.created.Some? <==> user.Some? && env.newId.Some?
    ensures |r.store.versions| == |store.versions| + if r.created.Some? then 1 else 0
    ensures r.created.Some? ==>
              var v := r.created.value;
              && v.id == env.newId.value
              && v.projectId == data.projectId && v.userId == user.value
              && v.name == data.name && v.description == StoredDescription(data.description)
              && v.versionNumber == NextVersionNumber(store.versions, data.projectId, user.value, env.lookupOk)
              && v.isLatest
              && r.store.versions == r.store.versions[..|store.versions|] + [v]
              && r.store.files ==
                 store.files + UploadRows(data.projectId, v.id, v.userId, data.attachments, env.upload, env.publicUrlBase)
    ensures user.Some? && r.created.None? ==> r.store.files == store.files
    ensures user.Some? ==>
              r.store.versions[..|store.versions|] ==
                if env.demoteOk then Demote(store.versions, data.projectId, user.value) else store.versions
    ensures user.Some? ==>
              forall i :: 0 <= i < |store.versions| && !Owns(store.versions[i], data.projectId, user.value) ==>
                r.store.versions[i] == store.versions[i]
    ensures user.Some? && env.demoteOk ==>
              forall i :: 0 <= i < |r.store.versions| ==>
                (Owns(r.store.versions[i], data.projectId, user.value) && r.store.versions[i].isLatest
                 <==> r.created.Some? && i == |store.versions|)
  {
    if user.None? then CreateResult(store, None)
    else
      var u := user.value;
      var n := NextVersionNumber(store.versions, data.projectId, u, env.lookupOk);
      var vs := if env.demoteOk then Demote(store.versions, data.projectId, u) else store.versions;
      match env.newId
      case None => CreateResult(Store(vs, store.files), None)
      case Some(id) =>
        var v := DesignVersion(id, data.projectId, data.name, StoredDescription(data.description), n, true, u);
        var rows := UploadRows(data.projectId, id, u, data.attachments, env.upload, env.publicUrlBase);
        assert (vs + [v])[..|store.versions|] == vs;
        CreateResult(Store(vs + [v], store.files + rows), Some(v))
  }

  /** The demotion's error is not checked: when it fails and the insert
      succeeds, every version that was latest stays latest beside the new one. */
  lemma FailedDemotionKeepsOldLatest(store: Store, u: string, data: DesignData, env: CreateEnv, i: nat)
    requires !env.demoteOk && env.newId.Some?
    requires i < |store.versions| && store.versions[i].isLatest
    ensures var r := CreateDesignVersion(store, Some(u), data, env);
            r.store.versions[i].isLatest && r.store.versions[|store.versions|].isLatest
  {
  }

  /** The versions of one project and user are numbered 1..k in table
      order and only the last is latest. */
  predicate NumberedUpTo(vs: seq<DesignVersion>, projectId: string, userId: string, k: nat)
  {
    var o := Owned(vs, projectId, userId);
    && |o| == k
    && (forall i :: 0 <= i < k ==> o[i].versionNumber == i + 1)
    && (forall i :: 0 <= i < k ==> (o[i].isLatest <==> i == k - 1))
  }

  lemma OwnedAppend(a: seq<DesignVersion>, b: seq<DesignVersion>, projectId: string, userId: string)
    ensures Owned(a + b, projectId, userId) == Owned(a, projectId, userId) + Owned(b, projectId, userId)
  {
    Seqs.FilterAppend(a, b, (v: DesignVersion) => Owns(v, projectId, userId));
  }

  lemma DemoteAppend(a: seq<DesignVersion>, b: seq<DesignVersion>, projectId: string, userId: string)
    ensures Demote(a + b, projectId, userId) == Demote(a, projectId, userId) + Demote(b, projectId, userId)
  {
    var l, r := Demote(a + b, projectId, userId), Demote(a, projectId, userId) + Demote(b, projectId, userId);
    assert forall i :: 0 <= i < |l| ==> l[i] == r[i] by {
      forall i | 0 <= i < |l|
        ensures l[i] == r[i]
      {
        if i < |a| { assert (a + b)[i] == a[i]; } else { assert (a + b)[i] == b[i - |a|]; }
      }
    }
  }

  /** Demoting and then selecting the project's versions is selecting them and then demoting. */
  lemma {:induction false} OwnedAfterDemote(vs: seq<DesignVersion>, projectId: string, userId: string)
    ensures Owned(Demote(vs, projectId, userId), projectId, userId) == Demote(Owned(vs, projectId, userId), projectId, userId)
  {
    if vs == [] {
      assert Demote(vs, projectId, userId) == [];
    } else {
      var k := |vs| - 1;
      var init, x := vs[..k], [vs[k]];
      var d := Demote(init, projectId, userId);
      var dx := Demote(x, projectId, userId);
      assert vs == init + x;
      calc {
        Owned(Demote(vs, projectId, userId), projectId, userId);
        { DemoteAppend(init, x, projectId, userId); }
        Owned(d + dx, projectId, userId);
        { OwnedAppend(d, dx, projectId, userId); }
        Owned(d, projectId, userId) + Owned(dx, projectId, userId);
        { OwnedAfterDemote(init, projectId, userId); DemoteSingleOwned(vs[k], projectId, userId); }
        Demote(Owned(init, projectId, userId), projectId, userId) + Demote(Owned(x, projectId, userId), projectId, userId);
        { DemoteAppend(Owned(init, projectId, userId), Owned(x, projectId, userId), projectId, userId); }
        Demote(Owned(init, projectId, userId) + Owned(x, projectId, userId), projectId, userId);
        { OwnedAppend(init, x, projectId, userId); }
        Demote(Owned(vs, projectId, userId), projectId, userId);
      }
    }
  }

  lemma DemoteSingleOwned(v: DesignVersion, projectId: string, userId: string)
    ensures Owned(Demote([v], projectId, userId), projectId, userId) == Demote(Owned([v], projectId, userId), projectId, userId)
  {
    var dv := Demote([v], projectId, userId);
    assert dv == [dv[0]];
    OwnedSingle(v, projectId, userId);
    OwnedSingle(dv[0], projectId, userId);
    if !Owns(v, projectId, userId) {
      assert Demote([], projectId, userId) == [];
    }
  }

  lemma OwnedSingle(v: DesignVersion, projectId: string, userId: string)
    ensures Owned([v], projectId, userId) == if Owns(v, projectId, userId) then [v] else []
  {
    assert [v][..0] == [];
  }

  /** Versions numbered 1..k make k + 1 the next number. */
  lemma NextAfterNumbering(vs: seq<DesignVersion>, projectId: string, userId: string, k: nat)
    requires NumberedUpTo(vs, projectId, userId, k)
    ensures NextVersionNumber(vs, projectId, userId, true) == k + 1
  {
    var o := Owned(vs, projectId, userId);
    var n := NextVersionNumber(vs, projectId, userId, true);
    if k > 0 {
      assert o[k - 1].versionNumber == k;
      if n != 1 {
        var j :| 0 <= j < |o| && o[j].versionNumber == n - 1;
      }
    }
  }

  /** Demoting numbered versions and appending the next one keeps the numbering. */
  lemma NumberingAfterAppend(o: seq<DesignVersion>, v: DesignVersion, projectId: string, userId: string, k: nat)
    requires |o| == k
    requires forall i :: 0 <= i < k ==> Owns(o[i], projectId, userId) && o[i].versionNumber == i + 1
    requires v.versionNumber == k + 1 && v.isLatest
    ensures var n := Demote(o, projectId, userId) + [v];
            && |n| == k + 1
            && (forall i :: 0 <= i < k + 1 ==> n[i].versionNumber == i + 1)
            && (forall i :: 0 <= i < k + 1 ==> (n[i].isLatest <==> i == k))
  {
  }

  /** The version table after a create whose insert and demotion succeed. */
  lemma CreatedVersions(store: Store, u: string, data: DesignData, env: CreateEnv)
    requires env.demoteOk && env.newId.Some?
    ensures var r := CreateDesignVersion(store, Some(u), data, env);
            && r.created.Some?
            && r.store.versions == Demote(store.versions, data.projectId, u) + [r.created.value]
            && r.created.value.versionNumber == NextVersionNumber(store.versions, data.projectId, u, env.lookupOk)
            && r.created.value.isLatest
  {
  }

  /** With versions numbered 1..k, a fully successful create adds number k + 1
      and makes it the only latest one. */
  lemma CreateExtendsNumbering(store: Store, u: string, data: DesignData, env: CreateEnv, k: nat)
    requires NumberedUpTo(store.versions, data.projectId, u, k)
    requires env.lookupOk && env.demoteOk && env.newId.Some?
    ensures NumberedUpTo(CreateDesignVersion(store, Some(u), data, env).store.versions, data.projectId, u, k + 1)
  {
    var p := data.projectId;
    NextAfterNumbering(store.versions, p, u, k);
    CreatedVersions(store, u, data, env);
    var r := CreateDesignVersion(store, Some(u), data, env);
    var d := Demote(store.versions, p, u);
    var v := r.created.value;
    var o := Owned(store.versions, p, u);
    assert r.store.versions == d + [v];
    OwnedAppend(d, [v], p, u);
    OwnedSingle(v, p, u);
    OwnedAfterDemote(store.versions, p, u);
    assert Owned(r.store.versions, p, u) == Demote(o, p, u) + [v];
    NumberingAfterAppend(o, v, p, u, k);
  }

  /** A sequence of creates for one project and user, each with its own outcomes. */
  function CreateAll(store: Store, u: string, data: DesignData, envs: seq<CreateEnv>): Store
  {
    if envs == [] then store
    else CreateDesignVersion(CreateAll(store, u, data, envs[..|envs| - 1]), Some(u), data, envs[|envs| - 1]).store
  }

  /** Starting from a project with no versions, n successful creates number
      the versions 1..n in creation order, and only the last is latest. */
  lemma {:induction false} CreateAllNumbersInOrder(store: Store, u: string, data: DesignData, envs: seq<CreateEnv>)
    requires Owned(store.versions, data.projectId, u) == []
    requires forall i :: 0 <= i < |envs| ==> envs[i].lookupOk && envs[i].demoteOk && envs[i].newId.Some?
    ensures NumberedUpTo(CreateAll(store, u, data, envs).versions, data.projectId, u, |envs|)
  {
    if envs != [] {
      var k := |envs| - 1;
      CreateAllNumbersInOrder(store, u, data, envs[..k]);
      CreateExtendsNumbering(CreateAll(store, u, data, envs[..k]), u, data, envs[k], k);
    }
  }

  /** `getLatestDesign`: the first design flagged latest. */
  function LatestDesign(designs: seq<DesignVersion>): (r: Option<DesignVersion>)
    ensures r.None? <==> forall i :: 0 <= i < |designs| ==> !designs[i].isLatest
    ensures r.Some? ==>
              exists i :: 0 <= i < |designs| && designs[i] == r.value && designs[i].isLatest &&
                forall j :: 0 <= j < i ==> !designs[j].isLatest
  {
    if designs == [] then None
    else if designs[0].isLatest then Some(designs[0])
    else
      var r := LatestDesign(designs[1..]);
      assert forall j :: 1 <= j < |designs| ==> designs[j] == designs[1..][j - 1];
      r
  }

  /** `getPastDesigns`: the designs not flagged latest, in order. */
  function PastDesigns(designs: seq<DesignVersion>): (r: seq<DesignVersion>)
    ensures Seqs.IsSubsequence(r, designs)
    ensures forall i :: 0 <= i < |r| ==> !r[i].isLatest
    ensures forall x :: x in r <==> x in designs && !x.isLatest
  {
    var r := Seqs.Filter(designs, (d: DesignVersion) => !d.isLatest);
    assert forall x :: x in r <==> multiset(r)[x] > 0;
    r
  }

  /** Past designs and latest-flagged designs partition the list. */
  lemma PastAndLatestPartition(designs: seq<DesignVersion>)
    ensures |PastDesigns(designs)| + Seqs.Count(designs, (d: DesignVersion) => d.isLatest) == |designs|
  {
    Seqs.CountComplement(designs, (d: DesignVersion) => d.isLatest, (d: DesignVersion) => !d.isLatest);
  }

  /** A list whose only latest design is its last one. */
  lemma LatestOfAppended(a: seq<DesignVersion>, v: DesignVersion)
    requires forall i :: 0 <= i < |a| ==> !a[i].isLatest
    requires v.isLatest
    ensures LatestDesign(a + [v]) == Some(v)
    ensures PastDesigns(a + [v]) == a
  {
    var s := a + [v];
    assert s[|a|].isLatest;
    var r := LatestDesign(s);
    var i :| 0 <= i < |s| && s[i] == r.value && s[i].isLatest && forall j :: 0 <= j < i ==> !s[j].isLatest;
    assert i == |a|;
    var notLatest := (d: DesignVersion) => !d.isLatest;
    Seqs.FilterAppend(a, [v], notLatest);
    Seqs.FilterKeepsAll(a, notLatest);
    assert [v][..0] == [];
  }

  /** Every demoted version of the project is past. */
  lemma DemotedOwnedArePast(vs: seq<DesignVersion>, projectId: string, userId: string)
    ensures var d := Demote(Owned(vs, projectId, userId), projectId, userId);
            forall i :: 0 <= i < |d| ==> !d[i].isLatest
  {
    var o := Owned(vs, projectId, userId);
    assert forall i :: 0 <= i < |o| ==> Owns(o[i], projectId, userId);
  }

  /** After a create whose demotion and insert succeed, the project's latest
      design is the new version and every earlier one is past. */
  lemma LatestAfterCreate(store: Store, u: string, data: DesignData, env: CreateEnv)
    requires env.demoteOk && env.newId.Some?
    ensures var r := CreateDesignVersion(store, Some(u), data, env);
            var mine := Owned(r.store.versions, data.projectId, u);
            && LatestDesign(mine) == r.created
            && PastDesigns(mine) == Demote(Owned(store.versions, data.projectId, u), data.projectId, u)
  {
    var p := data.projectId;
    CreatedVersions(store, u, data, env);
    var r := CreateDesignVersion(store, Some(u), data, env);
    var d := Demote(store.versions, p, u);
    var v := r.created.value;
    OwnedAppend(d, [v], p, u);
    OwnedSingle(v, p, u);
    OwnedAfterDemote(store.versions, p, u);
    DemotedOwnedArePast(store.versions, p, u);
    LatestOfAppended(Demote(Owned(store.versions, p, u), p, u), v);
  }

  /** `deleteDesignVersion`: the files of the version go first (their error
      is not checked), then the version itself. */
  function DeleteDesignVersion(store: Store, user: Option<string>, versionId: string,
                               filesOk: bool, versionOk: bool): (r: Store)
    ensures user.None? ==> r == store
    ensures Seqs.IsSubsequence(r.versions, store.versions)
    ensures Seqs.IsSubsequence(r.files, store.files)
    ensures forall v :: v in r.versions <==>
              v in store.versions && !(user.Some? && versionOk && v.id == versionId && v.userId == user.value)
    ensures forall f :: f in r.files <==>
              f in store.files && !(user.Some? && filesOk && f.versionId == versionId && f.userId == user.value)
    ensures forall v :: multiset(r.versions)[v] ==
              if user.Some? && versionOk && v.id == versionId && v.userId == user.value then 0
              else multiset(store.versions)[v]
    ensures forall f :: multiset(r.files)[f] ==
              if user.Some? && filesOk && f.versionId == versionId && f.userId == user.value then 0
              else multiset(store.files)[f]
  {
    if user.None? then
      Seqs.SubsequenceRefl(store.versions);
      Seqs.SubsequenceRefl(store.files);
      store
    else
      var u := user.value;
      var files := if filesOk then Seqs.Filter(store.files, (f: VersionFile) => !(f.versionId == versionId && f.userId == u))
                   else store.files;
      var versions := if versionOk then Seqs.Filter(store.versions, (v: DesignVersion) => !(v.id == versionId && v.userId == u))
                      else store.versions;
      Seqs.SubsequenceRefl(store.files);
      Seqs.SubsequenceRefl(store.versions);
      assert forall v :: v in versions <==> multiset(versions)[v] > 0;
      assert forall f :: f in files <==> multiset(files)[f] > 0;
      Store(versions, files)
  }

  /** Fields `updateDesignVersion` may change; `None` leaves a field alone. */
  datatype VersionUpdates = VersionUpdates(name: Option<string>, description: Option<string>)

  datatype UpdateResult = UpdateResult(store: Store, updated: Option<DesignVersion>)

  function Patch(v: DesignVersion, updates: VersionUpdates): (r: DesignVersion)
    ensures r.name == (if updates.name.Some? then updates.name.value else v.name)
    ensures r.description == (if updates.description.Some? then updates.description else v.description)
    ensures r.(name := v.name, description := v.description) == v
  {
    v.(name := if updates.name.Some? then updates.name.value else v.name,
       description := if updates.description.Some? then updates.description else v.description)
  }

  predicate Targets(v: DesignVersion, versionId: string, userId: string)
  {
    v.id == versionId && v.userId == userId
  }

  /** The first index of a version with the given id and owner, or `|vs|`. */
  function FirstTarget(vs: seq<DesignVersion>, versionId: string, userId: string): (i: nat)
    ensures i <= |vs|
    ensures i < |vs| ==> Targets(vs[i], versionId, userId)
    ensures forall j :: 0 <= j < i ==> !Targets(vs[j], versionId, userId)
  {
    if vs == [] then 0
    else if Targets(vs[0], versionId, userId) then 0
    else 1 + FirstTarget(vs[1..], versionId, userId)
  }

  /** `updateDesignVersion`: the update applies to the rows with that id and
      owner; `.single()` then reports the row only when there is exactly one. */
  function UpdateDesignVersion(store: Store, user: Option<string>, versionId: string,
                               updates: VersionUpdates, ok: bool): (r: UpdateResult)
    ensures !(user.Some? && ok) ==> r == UpdateResult(store, None)
    ensures r.store.files == store.files
    ensures |r.store.versions| == |store.versions|
    ensures user.Some? && ok ==>
              forall i :: 0 <= i < |store.versions| ==>
                r.store.versions[i] ==
                  if Targets(store.versions[i], versionId, user.value) then Patch(store.versions[i], updates)
                  else store.versions[i]
    ensures r.updated.Some? ==> r.updated.value in r.store.versions && Targets(r.updated.value, versionId, user.value)
    ensures user.Some? && ok ==>
              (r.updated.Some? <==> Seqs.Count(store.versions, (v: DesignVersion) => Targets(v, versionId, user.value)) == 1)
  {
    if !(user.Some? && ok) then UpdateResult(store, None)
    else
      var u := user.value;
      var vs := seq(|store.versions|, i requires 0 <= i < |store.versions| =>
                  if Targets(store.versions[i], versionId, u) then Patch(store.versions[i], updates)
                  else store.versions[i]);
      var k := FirstTarget(vs, versionId, u);
      var one := Seqs.Count(store.versions, (v: DesignVersion) => Targets(v, versionId, u)) == 1;
      if !one then UpdateResult(Store(vs, store.files), None)
      else
        OneTargetIsFound(store.versions, vs, versionId, u);
        UpdateResult(Store(vs, store.files), Some(vs[k]))
  }

  lemma OneTargetIsFound(before: seq<DesignVersion>, after: seq<DesignVersion>, versionId: string, u: string)
    requires |after| == |before|
    requires forall i :: 0 <= i < |before| ==> Targets(after[i], versionId, u) == Targets(before[i], versionId, u)
    requires Seqs.Count(before, (v: DesignVersion) => Targets(v, versionId, u)) == 1
    ensures FirstTarget(after, versionId, u) < |after|
  {
    Seqs.CountZeroIff(before, (v: DesignVersion) => Targets(v, versionId, u));
    var i :| 0 <= i < |before| && Targets(before[i], versionId, u);
    assert Targets(after[i], versionId, u);
  }
}

=== FILE: invitations.dfy ===
/**
 The local invitation list kept by src/hooks/useInvitations.ts. The list
 holds the signed-in user's rows; each handler's remote call succeeds or
 fails according to a parameter, and the list changes only after success.
 */
module InvitationList {
  import opened Common
  import Seqs
  import InvitePage

  type InviteStatus = InvitePage.InviteStatus

  datatype Invitation = Invitation(
    id: string,
    userId: string,
    companyName: string,
    pointOfContact: string,
    email: string,
    status: InviteStatus)

  datatype CreateResult = CreateResult(invitations: seq<Invitation>, sent: bool)

  /** `createInvitation`. `insertedId` is the id the backend gives the new
      row, `None` when the insert fails. */
  function CreateInvitation(invitations: seq<Invitation>, user: Option<string>,
                            companyName: string, pointOfContact: string, email: string,
                            insertedId: Option<string>): (r: CreateResult)
    ensures r.sent <==> user.Some? && insertedId.Some?
    ensures !r.sent ==> r.invitations == invitations
    ensures r.sent ==>
              && |r.invitations| == |invitations| + 1
              && r.invitations[1..] == invitations
              && r.invitations[0] ==
                 Invitation(insertedId.value, user.value, companyName, pointOfContact, email, InvitePage.Pending)
  {
    if user.None? || insertedId.None? then CreateResult(invitations, false)
    else
      var row := Invitation(insertedId.value, user.value, companyName, pointOfContact, email, InvitePage.Pending);
      CreateResult([row] + invitations, true)
  }

  /** How many invitations carry status `s`. */
  function StatusCount(invitations: seq<Invitation>, s: InviteStatus): nat
  {
    Seqs.Count(invitations, (v: Invitation) => v.status == s)
  }

  /** A sent invitation adds one to the pending count and leaves the other
      counts alone; an invitation not sent changes no count. */
  lemma CreateAddsOnePending(invitations: seq<Invitation>, user: Option<string>,
                             companyName: string, pointOfContact: string, email: string,
                             insertedId: Option<string>, s: InviteStatus)
    ensures var r := CreateInvitation(invitations, user, companyName, pointOfContact, email, insertedId);
            StatusCount(r.invitations, s) ==
              StatusCount(invitations, s) + if r.sent && s == InvitePage.Pending then 1 else 0
  {
    var r := CreateInvitation(invitations, user, companyName, pointOfContact, email, insertedId);
    if r.sent {
      var head := [r.invitations[0]];
      assert r.invitations == head + invitations;
      assert head[..0] == [];
      Seqs.CountAppend(head, invitations, (v: Invitation) => v.status == s);
    }
  }

  /** `updateInvitationStatus`: the status argument is typed to be
      accepted or declined; `ok` is whether the remote update succeeded. */
  function UpdateInvitationStatus(invitations: seq<Invitation>, user: Option<string>, id: string,
                                  status: InviteStatus, ok: bool): (r: seq<Invitation>)
    requires status != InvitePage.Pending
    ensures |r| == |invitations|
    ensures !(user.Some? && ok) ==> r == invitations
    ensures user.Some? && ok ==>
              forall i :: 0 <= i < |r| ==>
                r[i] == if invitations[i].id == id then invitations[i].(status := status) else invitations[i]
  {
    if user.None? || !ok then invitations
    else
      seq(|invitations|, i requires 0 <= i < |invitations| =>
        if invitations[i].id == id then invitations[i].(status := status) else invitations[i])
  }

  /** No update makes an invitation pending again. */
  lemma UpdateNeverAddsPending(invitations: seq<Invitation>, user: Option<string>, id: string,
                               status: InviteStatus, ok: bool)
    requires status != InvitePage.Pending
    ensures Seqs.Count(UpdateInvitationStatus(invitations, user, id, status, ok), (v: Invitation) => v.status == InvitePage.Pending)
            <= Seqs.Count(invitations, (v: Invitation) => v.status == InvitePage.Pending)
  {
    PendingCountStep(invitations, UpdateInvitationStatus(invitations, user, id, status, ok));
  }

  /** A list whose pending rows can only stop being pending has no more pending rows. */
  lemma {:induction false} PendingCountStep(before: seq<Invitation>, after: seq<Invitation>)
    requires |after| == |before|
    requires forall i :: 0 <= i < |after| ==> after[i].status == InvitePage.Pending ==> before[i].status == InvitePage.Pending
    ensures Seqs.Count(after, (v: Invitation) => v.status == InvitePage.Pending)
            <= Seqs.Count(before, (v: Invitation) => v.status == InvitePage.Pending)
  {
    if after != [] {
      var k := |after| - 1;
      PendingCountStep(before[..k], after[..k]);
      Seqs.CountLast(after, (v: Invitation) => v.status == InvitePage.Pending);
      Seqs.CountLast(before, (v: Invitation) => v.status == InvitePage.Pending);
    }
  }

  /** Repeating a status update changes nothing more. */
  lemma UpdateIdempotent(invitations: seq<Invitation>, user: Option<string>, id: string,
                         status: InviteStatus, ok: bool)
    requires status != InvitePage.Pending
    ensures var once := UpdateInvitationStatus(invitations, user, id, status, ok);
            UpdateInvitationStatus(once, user, id, status, ok) == once
  {
  }

  /** Updates of two different invitations can be applied in either order. */
  lemma UpdatesOfDifferentIdsCommute(invitations: seq<Invitation>, user: Option<string>,
                                     id1: string, s1: InviteStatus, id2: string, s2: InviteStatus)
    requires s1 != InvitePage.Pending && s2 != InvitePage.Pending
    requires id1 != id2
    ensures UpdateInvitationStatus(UpdateInvitationStatus(invitations, user, id1, s1, true), user, id2, s2, true)
         == UpdateInvitationStatus(UpdateInvitationStatus(invitations, user, id2, s2, true), user, id1, s1, true)
  {
  }

  /** After a successful update every row with that id carries the new status. */
  lemma UpdatedRowsCarryStatus(invitations: seq<Invitation>, u: string, id: string, status: InviteStatus)
    requires status != InvitePage.Pending
    ensures var r := UpdateInvitationStatus(invitations, Some(u), id, status, true);
            Seqs.Count(r, (v: Invitation) => v.id == id && v.status == status)
            == Seqs.Count(invitations, (v: Invitation) => v.id == id)
  {
    var r := UpdateInvitationStatus(invitations, Some(u), id, status, true);
    MatchCountStep(invitations, r, id, status);
  }

  lemma {:induction false} MatchCountStep(before: seq<Invitation>, after: seq<Invitation>, id: string, status: InviteStatus)
    requires |after| == |before|
    requires forall i :: 0 <= i < |after| ==>
               after[i] == if before[i].id == id then before[i].(status := status) else before[i]
    ensures Seqs.Count(after, (v: Invitation) => v.id == id && v.status == status)
            == Seqs.Count(before, (v: Invitation) => v.id == id)
  {
    if after != [] {
      var k := |after| - 1;
      MatchCountStep(before[..k], after[..k], id, status);
      Seqs.CountLast(after, (v: Invitation) => v.id == id && v.status == status);
      Seqs.CountLast(before, (v: Invitation) => v.id == id);
    }
  }
}

=== FILE: invite.dfy ===
/**
 The invitations page of src/pages/Invite.tsx, which keeps its own list in
 page state (seeded with three sample invites): form validation, the
 invite it builds and prepends, the per-status counts and the initials
 shown in each row's avatar. The page's simulated send always succeeds.
 */
module InvitePage {
  import Seqs
  import Text

  datatype InviteStatus = Pending | Accepted | Declined

  datatype Invite = Invite(
    id: string,
    companyName: string,
    pointOfContact: string,
    email: string,
    status: InviteStatus,
    sentDate: string)

  datatype InviteForm = InviteForm(companyName: string, pointOfContact: string, email: string)

  datatype PageState = PageState(invites: seq<Invite>, form: InviteForm)

  datatype SendOutcome = MissingFields | Sent

  datatype SendResult = SendResult(state: PageState, outcome: SendOutcome)

  const EmptyForm := InviteForm("", "", "")

  /** The sample invites the page starts with. */
  const SampleInvites: seq<Invite> := [
    Invite("1", "TechStart Inc.", "John Smith", "john@techstart.com", Accepted, "2024-01-15"),
    Invite("2", "Innovation Labs", "Sarah Johnson", "sarah@innovationlabs.com", Pending, "2024-01-10"),
    Invite("3", "Future Corp", "Mike Wilson", "mike@futurecorp.com", Declined, "2024-01-08")]

  const InitialState := PageState(SampleInvites, EmptyForm)

  predicate FormComplete(f: InviteForm)
  {
    f.companyName != "" && f.pointOfContact != "" && f.email != ""
  }

  /** `handleSendInvite`. `nowIso` is the ISO timestamp of the moment of
      sending; its date part becomes the sent date. */
  function SendInvite(st: PageState, nowIso: string): (r: SendResult)
    ensures !FormComplete(st.form) ==> r == SendResult(st, MissingFields)
    ensures FormComplete(st.form) ==>
              && r.outcome == Sent
              && |r.state.invites| == |st.invites| + 1
              && r.state.invites[1..] == st.invites
              && r.state.form == EmptyForm
    ensures FormComplete(st.form) ==>
              var n := r.state.invites[0];
              && n.companyName == st.form.companyName
              && n.pointOfContact == st.form.pointOfContact
              && n.email == st.form.email
              && n.status == Pending
              && n.sentDate == Text.DatePart(nowIso)
              && Text.IsDecimal(n.id)
              && Text.ParseNat(n.id) == |st.invites| + 1
  {
    if !FormComplete(st.form) then SendResult(st, MissingFields)
    else
      var f := st.form;
      Text.ParseNatToString(|st.invites| + 1);
      var n := Invite(Text.NatToString(|st.invites| + 1), f.companyName, f.pointOfContact, f.email,
                      Pending, Text.DatePart(nowIso));
      SendResult(PageState([n] + st.invites, EmptyForm), Sent)
  }

  /** `invites.filter(i => i.status === s).length`. */
  function StatusCount(invites: seq<Invite>, s: InviteStatus): nat
  {
    Seqs.Count(invites, (i: Invite) => i.status == s)
  }

  /** Every invite has one of the three statuses, so the three counts add up to the list. */
  lemma StatusCountsCoverList(invites: seq<Invite>)
    ensures StatusCount(invites, Accepted) + StatusCount(invites, Pending) + StatusCount(invites, Declined) == |invites|
  {
    var acc := (i: Invite) => i.status == Accepted;
    var pen := (i: Invite) => i.status == Pending;
    var dec := (i: Invite) => i.status == Declined;
    var notAcc := (i: Invite) => i.status != Accepted;
    Seqs.CountComplement(invites, acc, notAcc);
    Seqs.CountDisjointUnion(invites, pen, dec, notAcc);
  }

  /** A sent invite adds one to the pending count and leaves the others alone. */
  lemma SendAddsOnePending(st: PageState, nowIso: string)
    requires FormComplete(st.form)
    ensures var after := SendInvite(st, nowIso).state.invites;
            && StatusCount(after, Pending) == StatusCount(st.invites, Pending) + 1
            && StatusCount(after, Accepted) == StatusCount(st.invites, Accepted)
            && StatusCount(after, Declined) == StatusCount(st.invites, Declined)
  {
    var after := SendInvite(st, nowIso).state.invites;
    assert after == [after[0]] + st.invites;
    assert [after[0]][..0] == [];
    Seqs.CountAppend([after[0]], st.invites, (i: Invite) => i.status == Pending);
    Seqs.CountAppend([after[0]], st.invites, (i: Invite) => i.status == Accepted);
    Seqs.CountAppend([after[0]], st.invites, (i: Invite) => i.status == Declined);
  }

  /** The ids are distinct decimal numerals between 1 and the list length. */
  predicate IdsWellFormed(invites: seq<Invite>)
  {
    && (forall i :: 0 <= i < |invites| ==> Text.IsDecimal(invites[i].id))
    && (forall i :: 0 <= i < |invites| ==> 1 <= Text.ParseNat(invites[i].id) <= |invites|)
    && (forall i, j :: 0 <= i < j < |invites| ==> invites[i].id != invites[j].id)
  }

  lemma SampleIdsWellFormed()
    ensures IdsWellFormed(SampleInvites)
  {
    assert "1"[..0] == "" && "2"[..0] == "" && "3"[..0] == "";
  }

  /** While the list only grows by sending, the length-derived id of a new
      invite is fresh and the ids stay well formed. */
  lemma SendKeepsIdsWellFormed(st: PageState, nowIso: string)
    requires IdsWellFormed(st.invites)
    ensures IdsWellFormed(SendInvite(st, nowIso).state.invites)
  {
    var after := SendInvite(st, nowIso).state.invites;
    if FormComplete(st.form) {
      assert forall i :: 1 <= i < |after| ==> after[i] == st.invites[i - 1];
    }
  }

  /** The first character of each piece, skipping empty pieces (an empty
      piece's `n[0]` is `undefined`, which `join('')` renders as nothing). */
  function Heads(pieces: seq<string>): (r: string)
    ensures |r| <= |pieces|
  {
    if pieces == [] then []
    else (if pieces[0] == [] then [] else [pieces[0][0]]) + Heads(pieces[1..])
  }

  lemma {:induction false} HeadsAppend(a: seq<string>, b: seq<string>)
    ensures Heads(a + b) == Heads(a) + Heads(b)
  {
    if a == [] {
      assert a + b == b;
    } else {
      assert (a + b)[0] == a[0];
      assert (a + b)[1..] == a[1..] + b;
      HeadsAppend(a[1..], b);
      var h := if a[0] == [] then [] else [a[0][0]];
      assert h + (Heads(a[1..]) + Heads(b)) == (h + Heads(a[1..])) + Heads(b);
    }
  }

  /** `getInitials`: the upper-cased first letter of each space-separated word. */
  function Initials(name: string): (r: string)
    ensures |r| <= Seqs.Count(name, c => c == ' ') + 1
    ensures forall k :: 0 <= k < |r| ==> !('a' <= r[k] <= 'z')
  {
    Text.SplitPieceCount(name, ' ');
    Text.Upper(Heads(Text.Split(name, ' ')))
  }

  /** A single word gives its upper-cased first letter. */
  lemma InitialsOfWord(word: string)
    requires word != [] && ' ' !in word
    ensures Initials(word) == [Text.UpperChar(word[0])]
  {
    WordSplitsToItself(word);
  }

  lemma {:induction false} WordSplitsToItself(word: string)
    requires ' ' !in word
    ensures Text.Split(word, ' ') == [word]
  {
    if word != [] {
      WordSplitsToItself(word[1..]);
      assert [word[0]] + word[1..] == word;
    }
  }

  /** The initials of two names joined by a space are the initials of each, in order. */
  lemma InitialsOfTwoParts(a: string, b: string)
    ensures Initials(a + " " + b) == Initials(a) + Initials(b)
  {
    Text.SplitConcat(a, b, ' ');
    HeadsAppend(Text.Split(a, ' '), Text.Split(b, ' '));
    Text.UpperAppend(Heads(Text.Split(a, ' ')), Heads(Text.Split(b, ' ')));
  }

  /** An empty name has no initials. */
  lemma InitialsOfEmpty()
    ensures Initials("") == ""
  {
    assert Text.Split("", ' ') == [""];
    assert Heads([""]) == "";
  }

  /** The empty piece that a leading, trailing or doubled space leaves
      contributes no initial. */
  lemma InitialsSkipEmptyPieces(a: string, b: string)
    ensures Initials(" " + b) == Initials(b)
    ensures Initials(a + " ") == Initials(a)
    ensures Initials(a + "  " + b) == Initials(a) + Initials(b)
  {
    LeadingSpace(b);
    TrailingSpace(a);
    DoubledSpace(a, b);
  }

  lemma DoubledSpace(a: string, b: string)
    ensures Initials(a + "  " + b) == Initials(a) + Initials(b)
  {
    var b' := " " + b;
    var joined := a + " " + b';
    assert joined == a + "  " + b;
    InitialsOfTwoParts(a, b');
    LeadingSpace(b);
  }

  lemma LeadingSpace(b: string)
    ensures Initials(" " + b) == Initials(b)
  {
    InitialsOfEmpty();
    InitialsOfTwoParts("", b);
    assert "" + " " + b == " " + b;
  }

  lemma TrailingSpace(a: string)
    ensures Initials(a + " ") == Initials(a)
  {
    InitialsOfEmpty();
    InitialsOfTwoParts(a, "");
    assert a + " " + "" == a + " ";
  }

  /** A first and a last name give two upper-cased letters. */
  lemma InitialsOfTwoWords(first: string, last: string)
    requires first != [] && ' ' !in first
    requires last != [] && ' ' !in last
    ensures Initials(first + " " + last) == [Text.UpperChar(first[0]), Text.UpperChar(last[0])]
  {
    InitialsOfTwoParts(first, last);
    InitialsOfWord(first);
    InitialsOfWord(last);
  }
}

=== FILE: lifecycle.dfy ===
/**
 The project record the pages list, and its lifecycle. A project's status
 is a free string in the database; these are the seven values the pages
 recognise, in the order a project passes through them.
 */
module ProjectData {

  datatype Project = Project(
    id: string,
    name: string,
    client: string,
    kind: string,
    status: string,
    dueDate: string,
    description: string)

  const Initiation := "project initiation"
  const DesignDevelopment := "design development"
  const Prototyping := "prototyping"
  const Testing := "testing & refinement"
  const Production := "production"
  const Delivering := "delivering"
  const Completed := "completed"

  /** The stages in lifecycle order. */
  const Stages: seq<string> :=
    [Initiation, DesignDevelopment, Prototyping, Testing, Production, Delivering, Completed]

  predicate IsKnownStatus(status: string)
  {
    status in Stages
  }

  predicate IsCompleted(p: Project)
  {
    p.status == Completed
  }

  predicate IsOpen(p: Project)
  {
    p.status != Completed
  }
}

=== FILE: new_project.dfy ===
/**
 The "Create New Project" sheet of src/components/NewProjectSheet.tsx:
 its form, the validation of a submission, the payload handed to the
 project store and the reset after a successful create. The signed-in
 user's company (`""` when absent), the current time and the outcome of
 the create call are parameters.
 */
module NewProjectForm {
  import opened Common
  import Text
  import ProjectData

  /** The form; `dueDate` is the UTC ISO string (`toISOString()`) of the
      `Date` the calendar returned, if one was chosen. */
  datatype Form = Form(name: string, kind: string, client: string, description: string, dueDate: Option<string>)

  datatype SheetState = SheetState(form: Form, open: bool)

  /** What the sheet passes to `createProject`. */
  datatype Payload = Payload(name: string, kind: string, client: string, status: string, dueDate: string)

  /** How `createProject` answered: a project, nothing, or an exception. */
  datatype CreateOutcome = Created | ReturnedNothing | Threw

  datatype SubmitStatus = MissingInformation | ProjectCreated | NotCreated

  /** `sent` is the payload passed on, `None` when validation stopped the submission. */
  datatype SubmitResult = SubmitResult(state: SheetState, sent: Option<Payload>, status: SubmitStatus)

  const DefaultClient := "ING BANK"

  const TypeOptions: seq<string> := ["Food & Beverage", "Cosmetics", "Electronics", "Healthcare", "Fashion", "Other"]

  /** The form a sheet opens with, and returns to after a create. */
  function InitialForm(company: string): (f: Form)
    ensures f.name == "" && f.kind == "" && f.description == "" && f.dueDate.None?
    ensures f.client == if company != "" then company else DefaultClient
    ensures f.client != ""
  {
    Form("", "", if company != "" then company else DefaultClient, "", None)
  }

  predicate Complete(f: Form)
  {
    f.name != "" && f.kind != "" && f.client != ""
  }

  /** The due date sent: the date part of the chosen `Date`'s UTC ISO
      string, or of the current time's UTC ISO string when no day was
      chosen (or its date part is empty). */
  function DueDate(chosen: Option<string>, nowIso: string): (d: string)
    ensures chosen.Some? && Text.DatePart(chosen.value) != "" ==> d == Text.DatePart(chosen.value)
    ensures chosen.None? ==> d == Text.DatePart(nowIso)
    ensures 'T' !in d
  {
    var picked := if chosen.Some? then Text.DatePart(chosen.value) else "";
    if picked != "" then picked else Text.DatePart(nowIso)
  }

  function PayloadOf(f: Form, nowIso: string): (p: Payload)
    ensures p.name == f.name && p.kind == f.kind && p.client == f.client
    ensures p.status == ProjectData.Initiation
    ensures p.dueDate == DueDate(f.dueDate, nowIso)
  {
    Payload(f.name, f.kind, f.client, ProjectData.Initiation, DueDate(f.dueDate, nowIso))
  }

  /** `handleSubmit`. */
  function Submit(st: SheetState, company: string, nowIso: string, outcome: CreateOutcome): (r: SubmitResult)
    ensures !Complete(st.form) ==> r == SubmitResult(st, None, MissingInformation)
    ensures Complete(st.form) ==> r.sent == Some(PayloadOf(st.form, nowIso))
    ensures r.status == ProjectCreated <==> Complete(st.form) && outcome == Created
    ensures r.status == ProjectCreated ==> r.state == SheetState(InitialForm(company), false)
    ensures r.status != ProjectCreated ==> r.state == st
  {
    if !Complete(st.form) then SubmitResult(st, None, MissingInformation)
    else
      var payload := PayloadOf(st.form, nowIso);
      if outcome == Created then SubmitResult(SheetState(InitialForm(company), false), Some(payload), ProjectCreated)
      else SubmitResult(st, Some(payload), NotCreated)
  }

  /** Every project the sheet sends starts at the first lifecycle stage. */
  lemma SentProjectsStartAtInitiation(st: SheetState, company: string, nowIso: string, outcome: CreateOutcome)
    ensures var r := Submit(st, company, nowIso, outcome);
            r.sent.Some? ==> r.sent.value.status == ProjectData.Stages[0]
  {
  }

  /** A freshly opened or reset form is rejected until a name and a type are
      given, whatever the company; the client is never what is missing. */
  lemma FreshFormNeedsNameAndType(company: string, name: string, kind: string)
    ensures !Complete(InitialForm(company))
    ensures Complete(InitialForm(company).(name := name, kind := kind)) <==> name != "" && kind != ""
  {
  }

  /** Submitting the reset form right after a create is rejected and changes nothing. */
  lemma SecondSubmitRejected(st: SheetState, company: string, nowIso: string, o1: CreateOutcome, o2: CreateOutcome)
    requires Submit(st, company, nowIso, o1).status == ProjectCreated
    ensures var after := Submit(st, company, nowIso, o1).state;
            Submit(after, company, nowIso, o2) == SubmitResult(after, None, MissingInformation)
  {
  }

  datatype Field = Name | Client | Kind | Description

  /** `handleInputChange` for the text fields. */
  function SetField(f: Form, field: Field, value: string): (r: Form)
    ensures r.name == (if field == Name then value else f.name)
    ensures r.client == (if field == Client then value else f.client)
    ensures r.kind == (if field == Kind then value else f.kind)
    ensures r.description == (if field == Description then value else f.description)
    ensures r.dueDate == f.dueDate
  {
    match field
    case Name => f.(name := value)
    case Client => f.(client := value)
    case Kind => f.(kind := value)
    case Description => f.(description := value)
  }

  /** `handleInputChange("dueDate", …)`. */
  function SetDueDate(f: Form, dueDate: Option<string>): (r: Form)
    ensures r.dueDate == dueDate
    ensures r.(dueDate := f.dueDate) == f
  {
    f.(dueDate := dueDate)
  }

  /** The description never reaches the payload. */
  lemma DescriptionNotSent(f: Form, description: string, nowIso: string)
    ensures PayloadOf(SetField(f, Description, description), nowIso) == PayloadOf(f, nowIso)
  {
  }

  /** Editing a field twice keeps only the second value. */
  lemma LastEditWins(f: Form, field: Field, v1: string, v2: string)
    ensures SetField(SetField(f, field, v1), field, v2) == SetField(f, field, v2)
  {
  }
}

=== FILE: notifications.dfy ===
/**
 The in-memory notification feed of src/hooks/useNotifications.ts: a
 newest-first list fed by explicit calls and by change events on the
 projects table, with per-entry and bulk read flags. The clock readings
 used for ids and timestamps are parameters.
 */
module NotificationFeed {
  import Seqs

  datatype NotificationType = Created | Approved | Shipping | Review | Complete | StatusChanged

  datatype Notification = Notification(
    id: string,
    title: string,
    description: string,
    timestamp: string,
    kind: NotificationType,
    project: string,
    read: bool)

  /** What a caller supplies: a notification without id, timestamp and read flag. */
  datatype Draft = Draft(title: string, description: string, kind: NotificationType, project: string)

  /** The clock readings taken when an entry is made: `Date.now()` as a
      string (the id) and the ISO timestamp. Nothing makes them unique. */
  datatype Stamp = Stamp(id: string, timestamp: string)

  /** The part of a projects-table row a change payload carries that the feed reads. */
  datatype ProjectRow = ProjectRow(name: string, status: string)

  /** A change observed on the projects table. */
  datatype ChangeEvent =
    | Inserted(row: ProjectRow, stamp: Stamp)
    | Updated(before: ProjectRow, after: ProjectRow, stamp: Stamp)

  type Feed = seq<Notification>

  /** `n` is the entry `AddNotification` makes from draft `d` at `stamp`. */
  predicate FreshEntry(n: Notification, d: Draft, stamp: Stamp)
  {
    && n.title == d.title
    && n.description == d.description
    && n.kind == d.kind
    && n.project == d.project
    && n.id == stamp.id
    && n.timestamp == stamp.timestamp
    && !n.read
  }

  /** `a` and `b` agree on every field except possibly the read flag. */
  predicate SameExceptRead(a: Notification, b: Notification)
  {
    a.(read := b.read) == b
  }

  function AddNotification(feed: Feed, d: Draft, stamp: Stamp): (r: Feed)
    ensures |r| == |feed| + 1
    ensures FreshEntry(r[0], d, stamp)
    ensures r[1..] == feed
  {
    [Notification(stamp.id, d.title, d.description, stamp.timestamp, d.kind, d.project, false)] + feed
  }

  function CreatedDescription(name: string): string
  {
    "Project \"" + name + "\" has been created successfully"
  }

  function StatusDescription(before: ProjectRow, after: ProjectRow): string
  {
    "Project \"" + after.name + "\" status changed from " + before.status + " to " + after.status
  }

  /** The handler for an INSERT on the projects table. */
  function OnProjectInserted(feed: Feed, row: ProjectRow, stamp: Stamp): (r: Feed)
    ensures |r| == |feed| + 1
    ensures r[1..] == feed
    ensures FreshEntry(r[0], Draft("New Project Created", CreatedDescription(row.name), Created, row.name), stamp)
  {
    AddNotification(feed, Draft("New Project Created", CreatedDescription(row.name), Created, row.name), stamp)
  }

  /** The handler for an UPDATE on the projects table: only a status change notifies. */
  function OnProjectUpdated(feed: Feed, before: ProjectRow, after: ProjectRow, stamp: Stamp): (r: Feed)
    ensures before.status == after.status ==> r == feed
    ensures before.status != after.status ==>
              && |r| == |feed| + 1
              && r[1..] == feed
              && FreshEntry(r[0], Draft("Project Status Updated", StatusDescription(before, after), StatusChanged, after.name), stamp)
  {
    if after.status != before.status then
      AddNotification(feed, Draft("Project Status Updated", StatusDescription(before, after), StatusChanged, after.name), stamp)
    else
      feed
  }

  /** Whether an event produces a notification. */
  predicate Notifies(e: ChangeEvent)
  {
    e.Inserted? || e.before.status != e.after.status
  }

  function Apply(feed: Feed, e: ChangeEvent): (r: Feed)
    ensures Notifies(e) ==> |r| == |feed| + 1 && r[1..] == feed
    ensures !Notifies(e) ==> r == feed
  {
    match e
    case Inserted(row, stamp) => OnProjectInserted(feed, row, stamp)
    case Updated(before, after, stamp) => OnProjectUpdated(feed, before, after, stamp)
  }

  /** The feed after observing `events` in order. */
  function Replay(feed: Feed, events: seq<ChangeEvent>): Feed
    decreases |events|
  {
    if events == [] then feed
    else Replay(Apply(feed, events[0]), events[1..])
  }

  lemma CountSingle(e: ChangeEvent)
    ensures Seqs.Count([e], Notifies) == if Notifies(e) then 1 else 0
  {
    assert [e][..0] == [];
  }

  /** Observing a run of events adds one entry per notifying event. */
  lemma {:induction false} ReplayLength(feed: Feed, events: seq<ChangeEvent>)
    ensures |Replay(feed, events)| == |feed| + Seqs.Count(events, Notifies)
    decreases |events|
  {
    if events != [] {
      ReplayLength(Apply(feed, events[0]), events[1..]);
      Seqs.CountAppend([events[0]], events[1..], Notifies);
      assert [events[0]] + events[1..] == events;
      CountSingle(events[0]);
    }
  }

  /** The entries present before a run of events stay, in order, at the end
      of the feed: new entries only ever go in front. */
  lemma {:induction false} ReplayKeepsSuffix(feed: Feed, events: seq<ChangeEvent>)
    ensures |feed| <= |Replay(feed, events)|
    ensures Replay(feed, events)[|Replay(feed, events)| - |feed|..] == feed
    decreases |events|
  {
    if events != [] {
      var next := Apply(feed, events[0]);
      ReplayKeepsSuffix(next, events[1..]);
      var r := Replay(next, events[1..]);
      if Notifies(events[0]) {
        assert r[|r| - |next|..][1..] == r[|r| - |feed|..];
      }
    }
  }

  function MarkAsRead(feed: Feed, id: string): (r: Feed)
    ensures |r| == |feed|
    ensures forall i :: 0 <= i < |feed| && feed[i].id != id ==> r[i] == feed[i]
    ensures forall i :: 0 <= i < |feed| && feed[i].id == id ==> r[i].read && SameExceptRead(r[i], feed[i])
  {
    seq(|feed|, i requires 0 <= i < |feed| =>
      if feed[i].id == id then feed[i].(read := true) else feed[i])
  }

  function MarkAllAsRead(feed: Feed): (r: Feed)
    ensures |r| == |feed|
    ensures forall i :: 0 <= i < |feed| ==> r[i].read && SameExceptRead(r[i], feed[i])
  {
    seq(|feed|, i requires 0 <= i < |feed| => feed[i].(read := true))
  }

  predicate IsUnread(n: Notification)
  {
    !n.read
  }

  /** An unread entry carrying `id`. */
  predicate UnreadWithId(id: string, n: Notification)
  {
    !n.read && n.id == id
  }

  /** The number of unread entries (`notifications.filter(n => !n.read).length`). */
  function UnreadCount(feed: Feed): (n: nat)
    ensures n <= |feed|
    ensures n == 0 <==> forall i :: 0 <= i < |feed| ==> feed[i].read
    ensures n == |feed| <==> forall i :: 0 <= i < |feed| ==> !feed[i].read
  {
    Seqs.CountZeroIff(feed, IsUnread);
    Seqs.CountFullIff(feed, IsUnread);
    Seqs.Count(feed, IsUnread)
  }

  lemma MarkAsReadIdempotent(feed: Feed, id: string)
    ensures MarkAsRead(MarkAsRead(feed, id), id) == MarkAsRead(feed, id)
  {
  }

  lemma MarkAllAsReadIdempotent(feed: Feed)
    ensures MarkAllAsRead(MarkAllAsRead(feed)) == MarkAllAsRead(feed)
  {
  }

  /** Marking one entry first makes no difference to marking all. */
  lemma MarkAsReadThenAll(feed: Feed, id: string)
    ensures MarkAllAsRead(MarkAsRead(feed, id)) == MarkAllAsRead(feed)
  {
  }

  lemma MarkAsReadCommutes(feed: Feed, a: string, b: string)
    ensures MarkAsRead(MarkAsRead(feed, a), b) == MarkAsRead(MarkAsRead(feed, b), a)
  {
  }

  /** After marking all, nothing is unread. */
  lemma MarkAllClearsUnread(feed: Feed)
    ensures UnreadCount(MarkAllAsRead(feed)) == 0
  {
  }

  /** A new entry is unread, so it raises the unread count by one. */
  lemma {:induction false} AddRaisesUnread(feed: Feed, d: Draft, stamp: Stamp)
    ensures UnreadCount(AddNotification(feed, d, stamp)) == UnreadCount(feed) + 1
  {
    var r := AddNotification(feed, d, stamp);
    assert r == [r[0]] + feed;
    Seqs.CountAppend([r[0]], feed, IsUnread);
    assert [r[0]][..0] == [];
  }

  /** Marking `id` read lowers the unread count by exactly the number of
      unread entries carrying `id`. */
  lemma {:induction false} MarkAsReadUnread(feed: Feed, id: string)
    ensures UnreadCount(MarkAsRead(feed, id)) + Seqs.Count(feed, n => UnreadWithId(id, n))
            == UnreadCount(feed)
  {
    if feed != [] {
      var init := feed[..|feed| - 1];
      MarkAsReadUnread(init, id);
      var r := MarkAsRead(feed, id);
      assert r[..|r| - 1] == MarkAsRead(init, id);
      Seqs.CountLast(r, IsUnread);
      Seqs.CountLast(feed, IsUnread);
      Seqs.CountLast(feed, n => UnreadWithId(id, n));
    }
  }

  /** Marking an id read never raises the unread count, and lowers it when
      some unread entry carries that id. */
  lemma MarkAsReadLowersUnread(feed: Feed, id: string, k: int)
    requires 0 <= k < |feed| && feed[k].id == id && !feed[k].read
    ensures UnreadCount(MarkAsRead(feed, id)) < UnreadCount(feed)
  {
    MarkAsReadUnread(feed, id);
    Seqs.CountZeroIff(feed, n => UnreadWithId(id, n));
  }
}

=== FILE: projects.dfy ===
/**
 The list logic of src/pages/Projects.tsx: which view the path selects,
 the status badge colour, the four filters applied in sequence, slice
 pagination, the five-button page window, and the page-index state that
 the filter controls and the navigation buttons drive.
 */
module ProjectsPage {
  import opened Common
  import Seqs
  import Text
  import opened ProjectData

  datatype View = Overview | InProgress | CompletedOnly

  const InProgressPath := "/projects/in-progress"
  const CompletedPath := "/projects/completed"

  /** The view is chosen by exact comparison of the path. */
  function CurrentView(path: string): (v: View)
    ensures v == InProgress <==> path == InProgressPath
    ensures v == CompletedOnly <==> path == CompletedPath
    ensures v == Overview <==> path != InProgressPath && path != CompletedPath
  {
    if path == InProgressPath then InProgress
    else if path == CompletedPath then CompletedOnly
    else Overview
  }

  const DefaultColor := "bg-gray-100 text-gray-800"

  /** The badge classes for a status. */
  function StatusColor(status: string): (c: string)
    ensures !IsKnownStatus(status) ==> c == DefaultColor
    ensures IsKnownStatus(status) ==> c != DefaultColor
  {
    if status == Initiation then "bg-blue-100 text-blue-800"
    else if status == DesignDevelopment then "bg-purple-100 text-purple-800"
    else if status == Prototyping then "bg-orange-100 text-orange-800"
    else if status == Testing then "bg-yellow-100 text-yellow-800"
    else if status == Production then "bg-indigo-100 text-indigo-800"
    else if status == Delivering then "bg-cyan-100 text-cyan-800"
    else if status == Completed then "bg-green-100 text-green-800"
    else DefaultColor
  }

  /** Every lifecycle stage gets a colour of its own. */
  lemma StatusColorsDistinct()
    ensures forall i, j :: 0 <= i < j < |Stages| ==>
              StatusColor(Stages[i]) != StatusColor(Stages[j])
  {
  }

  /** The client a row shows and is searched by: the signed-in user's
      company when it is set (non-empty), the project's own client otherwise. */
  function ShownClient(p: Project, company: string): (c: string)
    ensures company != "" ==> c == company
    ensures company == "" ==> c == p.client
  {
    if company != "" then company else p.client
  }

  /** The filter controls and the context they are read against. */
  datatype Criteria = Criteria(
    view: View,
    searchTerm: string,
    company: string,
    statusFilter: string,
    typeFilter: string)

  const All := "all"

  predicate InView(view: View, p: Project)
  {
    match view
    case Overview => true
    case InProgress => p.status != Completed
    case CompletedOnly => p.status == Completed
  }

  /** Case-insensitive match of the term against the name or the shown client. */
  predicate MatchesSearch(term: string, company: string, p: Project)
  {
    Text.Includes(Text.Lower(p.name), Text.Lower(term)) ||
    Text.Includes(Text.Lower(ShownClient(p, company)), Text.Lower(term))
  }

  /** Whether a project passes every filter that is switched on. */
  predicate Selected(c: Criteria, p: Project)
  {
    && InView(c.view, p)
    && (c.searchTerm == "" || MatchesSearch(c.searchTerm, c.company, p))
    && (c.statusFilter == All || p.status == c.statusFilter)
    && (c.typeFilter == All || p.kind == c.typeFilter)
  }

  function ByView(projects: seq<Project>, view: View): seq<Project>
  {
    match view
    case InProgress => Seqs.Filter(projects, (p: Project) => p.status != Completed)
    case CompletedOnly => Seqs.Filter(projects, (p: Project) => p.status == Completed)
    case Overview => projects
  }

  function BySearch(projects: seq<Project>, term: string, company: string): seq<Project>
  {
    if term != "" then Seqs.Filter(projects, p => MatchesSearch(term, company, p)) else projects
  }

  function ByStatus(projects: seq<Project>, status: string): seq<Project>
  {
    if status != All then Seqs.Filter(projects, (p: Project) => p.status == status) else projects
  }

  function ByType(projects: seq<Project>, kind: string): seq<Project>
  {
    if kind != All then Seqs.Filter(projects, (p: Project) => p.kind == kind) else projects
  }

  /** The four filters in the order the page applies them: view, search,
      status, type. The result is the order-preserving selection of exactly
      the projects that pass all enabled filters. */
  function FilteredProjects(projects: seq<Project>, c: Criteria): (r: seq<Project>)
    ensures r == Seqs.Filter(projects, p => Selected(c, p))
    ensures Seqs.IsSubsequence(r, projects)
    ensures forall i :: 0 <= i < |r| ==> Selected(c, r[i])
    ensures forall x :: multiset(r)[x] == if Selected(c, x) then multiset(projects)[x] else 0
  {
    FilteredIsOneFilter(projects, c);
    ByType(ByStatus(BySearch(ByView(projects, c.view), c.searchTerm, c.company), c.statusFilter), c.typeFilter)
  }

  /** A stage that is switched off is the filter by a predicate that always holds. */
  lemma StageIsFilter(s: seq<Project>, on: bool, stage: seq<Project>, p: Project -> bool, gate: Project -> bool)
    requires on ==> stage == Seqs.Filter(s, p)
    requires !on ==> stage == s
    requires forall x :: gate(x) <==> (!on || p(x))
    ensures stage == Seqs.Filter(s, gate)
  {
    if on {
      Seqs.FilterExtensional(s, p, gate);
    } else {
      Seqs.FilterKeepsAll(s, gate);
    }
  }

  lemma FilteredIsOneFilter(projects: seq<Project>, c: Criteria)
    ensures ByType(ByStatus(BySearch(ByView(projects, c.view), c.searchTerm, c.company), c.statusFilter), c.typeFilter)
            == Seqs.Filter(projects, p => Selected(c, p))
  {
    var g1 := (p: Project) => InView(c.view, p);
    var g2 := (p: Project) => c.searchTerm == "" || MatchesSearch(c.searchTerm, c.company, p);
    var g3 := (p: Project) => c.statusFilter == All || p.status == c.statusFilter;
    var g4 := (p: Project) => c.typeFilter == All || p.kind == c.typeFilter;
    var s1 := ByView(projects, c.view);
    match c.view {
      case Overview => Seqs.FilterKeepsAll(projects, g1);
      case InProgress => Seqs.FilterExtensional(projects, (p: Project) => p.status != Completed, g1);
      case CompletedOnly => Seqs.FilterExtensional(projects, (p: Project) => p.status == Completed, g1);
    }
    var s2 := BySearch(s1, c.searchTerm, c.company);
    StageIsFilter(s1, c.searchTerm != "", s2, p => MatchesSearch(c.searchTerm, c.company, p), g2);
    var s3 := ByStatus(s2, c.statusFilter);
    StageIsFilter(s2, c.statusFilter != All, s3, (p: Project) => p.status == c.statusFilter, g3);
    var s4 := ByType(s3, c.typeFilter);
    StageIsFilter(s3, c.typeFilter != All, s4, (p: Project) => p.kind == c.typeFilter, g4);
    var g12 := (p: Project) => g1(p) && g2(p);
    var g123 := (p: Project) => g12(p) && g3(p);
    Seqs.FilterCompose(projects, g1, g2, g12);
    Seqs.FilterCompose(projects, g12, g3, g123);
    Seqs.FilterCompose(projects, g123, g4, p => Selected(c, p));
  }

  /** The in-progress view never lists a completed project; the completed
      view lists nothing else. */
  lemma ViewsSplitByCompletion(projects: seq<Project>, c: Criteria)
    ensures c.view == InProgress ==>
              forall i :: 0 <= i < |FilteredProjects(projects, c)| ==>
                FilteredProjects(projects, c)[i].status != Completed
    ensures c.view == CompletedOnly ==>
              forall i :: 0 <= i < |FilteredProjects(projects, c)| ==>
                FilteredProjects(projects, c)[i].status == Completed
  {
  }

  /** With every control at its neutral value the overview lists every project. */
  lemma NeutralCriteriaKeepAll(projects: seq<Project>, company: string)
    ensures FilteredProjects(projects, Criteria(Overview, "", company, All, All)) == projects
  {
    Seqs.FilterKeepsAll(projects, p => Selected(Criteria(Overview, "", company, All, All), p));
  }

  /** What a page of the filtered list shows. */
  datatype PageView<T> = PageView(items: seq<T>, total: nat, totalPages: nat)

  /** `Math.ceil(a / b)` for natural `a` and positive `b`. */
  function CeilDiv(a: nat, b: nat): (q: nat)
    requires b > 0
    ensures q * b >= a
    ensures q > 0 ==> (q - 1) * b < a
    ensures q == 0 <==> a == 0
  {
    var q := (a + b - 1) / b;
    assert a + b - 1 == q * b + (a + b - 1) % b;
    assert (q - 1) * b == q * b - b;
    q
  }

  /** The index of a page's first item. */
  function PageStart(page: int, perPage: int): (start: nat)
    requires page >= 1 && perPage >= 1
    ensures start == (page - 1) * perPage
  {
    (page - 1) * perPage
  }

  /** `getPaginatedProjects`: the slice `[(page-1)*perPage, page*perPage)` of
      the filtered list, clamped to its end as `Array.prototype.slice` does,
      with the item count and `Math.ceil(count / perPage)` pages. */
  function Paginate<T>(filtered: seq<T>, page: int, perPage: int): (v: PageView<T>)
    requires page >= 1 && perPage >= 1
    ensures v.total == |filtered|
    ensures v.totalPages * perPage >= |filtered|
    ensures v.totalPages > 0 ==> (v.totalPages - 1) * perPage < |filtered|
    ensures |v.items| <= perPage
    ensures |v.items| == if PageStart(page, perPage) >= |filtered| then 0
                         else Min(perPage, |filtered| - PageStart(page, perPage))
    ensures forall k :: 0 <= k < |v.items| ==> v.items[k] == filtered[PageStart(page, perPage) + k]
  {
    var start := PageStart(page, perPage);
    var end := start + perPage;
    PageView(filtered[Min(start, |filtered|)..Min(end, |filtered|)], |filtered|, CeilDiv(|filtered|, perPage))
  }

  /** Multiplying by a natural number preserves order. */
  lemma {:induction false} MulMonotone(a: nat, b: nat, c: nat)
    requires a <= b
    ensures a * c <= b * c
    decreases b - a
  {
    if a < b {
      MulMonotone(a, b - 1, c);
      assert b * c == (b - 1) * c + c;
    }
  }

  /** A page has items exactly when its number is at most the page count. */
  lemma PageNonEmptyIff<T>(filtered: seq<T>, page: int, perPage: int)
    requires page >= 1 && perPage >= 1
    ensures Paginate(filtered, page, perPage).items != [] <==> page <= Paginate(filtered, page, perPage).totalPages
  {
    var v := Paginate(filtered, page, perPage);
    var tp := v.totalPages;
    var start := PageStart(page, perPage);
    if page <= tp {
      MulMonotone(page - 1, tp - 1, perPage);
      assert start < |filtered|;
      assert |v.items| >= 1;
    } else {
      MulMonotone(tp, page - 1, perPage);
      assert start >= |filtered|;
      assert |v.items| == 0;
    }
  }

  /** Pages 1 to k laid end to end. */
  function PagesUpTo<T>(filtered: seq<T>, perPage: int, k: nat): seq<T>
    requires perPage >= 1
  {
    if k == 0 then [] else PagesUpTo(filtered, perPage, k - 1) + Paginate(filtered, k, perPage).items
  }

  lemma {:induction false} PagesUpToIsPrefix<T>(filtered: seq<T>, perPage: int, k: nat)
    requires perPage >= 1
    ensures PagesUpTo(filtered, perPage, k) == filtered[..Min(k * perPage, |filtered|)]
  {
    if k > 0 {
      PagesUpToIsPrefix(filtered, perPage, k - 1);
      assert (k - 1) * perPage + perPage == k * perPage;
      var before := Min((k - 1) * perPage, |filtered|);
      var after := Min(k * perPage, |filtered|);
      var items := Paginate(filtered, k, perPage).items;
      assert filtered[..after] == filtered[..before] + items;
    }
  }

  /** The pages 1..totalPages partition the filtered list: read in order
      they give back every item exactly once. */
  lemma AllPagesCoverList<T>(filtered: seq<T>, perPage: int)
    requires perPage >= 1
    ensures PagesUpTo(filtered, perPage, Paginate(filtered, 1, perPage).totalPages) == filtered
  {
    var tp := Paginate(filtered, 1, perPage).totalPages;
    PagesUpToIsPrefix(filtered, perPage, tp);
  }

  /** Twelve items at ten per page make two pages: the first ten, then the
      last two; a third page would be empty. */
  lemma TwelveItemsTenPerPage<T>(filtered: seq<T>)
    requires |filtered| == 12
    ensures Paginate(filtered, 1, 10).items == filtered[..10]
    ensures Paginate(filtered, 2, 10).items == filtered[10..]
    ensures Paginate(filtered, 3, 10).items == []
    ensures Paginate(filtered, 1, 10).totalPages == 2
  {
  }

  /** The "first–last of total" caption shown under a page. */
  datatype Caption = Caption(first: int, last: int, total: nat)

  function CaptionFor(page: int, perPage: int, total: nat): Caption
  {
    Caption((page - 1) * perPage + 1, Min(page * perPage, total), total)
  }

  /** On a page that exists the caption names exactly the positions (1-based)
      of the items shown. */
  lemma CaptionMatchesPage<T>(filtered: seq<T>, page: int, perPage: int)
    requires perPage >= 1 && 1 <= page <= Paginate(filtered, page, perPage).totalPages
    ensures CaptionFor(page, perPage, |filtered|).last - CaptionFor(page, perPage, |filtered|).first + 1
            == |Paginate(filtered, page, perPage).items|
    ensures CaptionFor(page, perPage, |filtered|).first - 1 == (page - 1) * perPage
  {
    PageNonEmptyIff(filtered, page, perPage);
    assert page * perPage == (page - 1) * perPage + perPage;
  }

  const MaxVisiblePages := 5
  const HalfVisible := MaxVisiblePages / 2

  /** `getPageNumbers`: the page buttons shown, at most five consecutive
      pages, clamped to [1, totalPages], containing the current page and
      centred on it when there is room. */
  method PageNumbers(totalPages: nat, currentPage: int) returns (pages: seq<int>)
    ensures |pages| == Min(totalPages, MaxVisiblePages)
    ensures forall k :: 0 <= k < |pages| ==> pages[k] == pages[0] + k
    ensures forall k :: 0 <= k < |pages| ==> 1 <= pages[k] <= totalPages
    ensures totalPages <= MaxVisiblePages ==> forall k :: 0 <= k < |pages| ==> pages[k] == k + 1
    ensures 1 <= currentPage <= totalPages ==> currentPage in pages
    ensures totalPages > MaxVisiblePages && HalfVisible < currentPage <= totalPages - HalfVisible ==>
              pages[HalfVisible] == currentPage
    ensures totalPages > MaxVisiblePages ==>
              pages[0] == Max(1, Min(currentPage - HalfVisible, totalPages - MaxVisiblePages + 1))
  {
    var startPage, endPage;
    if totalPages <= MaxVisiblePages {
      startPage, endPage := 1, totalPages;
    } else {
      startPage := Max(1, currentPage - HalfVisible);
      endPage := Min(totalPages, startPage + MaxVisiblePages - 1);
      if endPage - startPage < MaxVisiblePages - 1 {
        startPage := Max(1, endPage - MaxVisiblePages + 1);
      }
    }
    pages := [];
    var i := startPage;
    while i <= endPage
      invariant startPage <= i <= Max(startPage, endPage + 1)
      invariant |pages| == i - startPage
      invariant forall k :: 0 <= k < |pages| ==> pages[k] == startPage + k
    {
      pages := pages + [i];
      i := i + 1;
    }
    if 1 <= currentPage <= totalPages {
      assert pages[currentPage - startPage] == currentPage;
    }
  }

  /** The page-index state behind the list. */
  datatype ListState = ListState(
    searchTerm: string,
    statusFilter: string,
    typeFilter: string,
    page: int,
    perPage: int)

  const InitialState := ListState("", All, All, 1, 10)

  /** The values the "items per page" control offers. */
  const PageSizeOptions: seq<string> := ["5", "10", "20", "50"]

  function SetSearchTerm(st: ListState, term: string): (r: ListState)
    ensures r.searchTerm == term && r.page == 1
    ensures r.statusFilter == st.statusFilter && r.typeFilter == st.typeFilter && r.perPage == st.perPage
  {
    st.(searchTerm := term, page := 1)
  }

  function SetStatusFilter(st: ListState, status: string): (r: ListState)
    ensures r.statusFilter == status && r.page == 1
    ensures r.searchTerm == st.searchTerm && r.typeFilter == st.typeFilter && r.perPage == st.perPage
  {
    st.(statusFilter := status, page := 1)
  }

  function SetTypeFilter(st: ListState, kind: string): (r: ListState)
    ensures r.typeFilter == kind && r.page == 1
    ensures r.searchTerm == st.searchTerm && r.statusFilter == st.statusFilter && r.perPage == st.perPage
  {
    st.(typeFilter := kind, page := 1)
  }

  /** `handleItemsPerPageChange`: the chosen option is parsed as a number. */
  function SetItemsPerPage(st: ListState, value: string): (r: ListState)
    requires value in PageSizeOptions
    ensures r.perPage in {5, 10, 20, 50} && r.page == 1
    ensures r.searchTerm == st.searchTerm && r.statusFilter == st.statusFilter && r.typeFilter == st.typeFilter
  {
    PageSizeValues();
    st.(perPage := Text.ParseNat(value), page := 1)
  }

  /** The options read as the numbers they spell. */
  lemma PageSizeValues()
    ensures Text.ParseNat("5") == 5 && Text.ParseNat("10") == 10
    ensures Text.ParseNat("20") == 20 && Text.ParseNat("50") == 50
  {
    assert "10"[..1] == "1" && "20"[..1] == "2" && "50"[..1] == "5";
    assert "5"[..0] == "" && "1"[..0] == "" && "2"[..0] == "";
  }

  /** The "previous" button. */
  function PreviousPage(page: int): (r: int)
    ensures r >= 1
    ensures page > 1 ==> r == page - 1
    ensures page <= 1 ==> r == 1
  {
    Max(page - 1, 1)
  }

  /** The "next" button. */
  function NextPage(page: int, totalPages: int): (r: int)
    ensures r <= totalPages
    ensures page < totalPages ==> r == page + 1
    ensures page >= totalPages ==> r == totalPages
  {
    Min(page + 1, totalPages)
  }

  /** The page a list state shows, for the list its criteria select. */
  function ShownPage<T>(st: ListState, filtered: seq<T>): PageView<T>
    requires st.page >= 1 && st.perPage >= 1
  {
    Paginate(filtered, st.page, st.perPage)
  }

  /** After a change of criteria or page size the list shows its first
      page: the leading items of the newly selected list, and something
      exactly when that list is not empty. */
  ghost predicate ShowsFirstPage<T>(st: ListState, filtered: seq<T>)
  {
    st.page == 1 && st.perPage >= 1 &&
    ShownPage(st, filtered).items == filtered[..Min(st.perPage, |filtered|)] &&
    (ShownPage(st, filtered).items != [] <==> filtered != [])
  }

  lemma FirstPageShown<T>(st: ListState, filtered: seq<T>)
    requires st.page == 1 && st.perPage >= 1
    ensures ShowsFirstPage(st, filtered)
  {
    PageNonEmptyIff(filtered, 1, st.perPage);
  }

  /** Changing the search, either filter or the page size brings the list
      back to its first page, whichever list the new criteria select. */
  lemma FilterChangeResetsPage<T>(st: ListState, term: string, status: string, kind: string, size: string,
                                  filtered: seq<T>)
    requires st.perPage >= 1 && size in PageSizeOptions
    ensures ShowsFirstPage(SetSearchTerm(st, term), filtered)
    ensures ShowsFirstPage(SetStatusFilter(st, status), filtered)
    ensures ShowsFirstPage(SetTypeFilter(st, kind), filtered)
    ensures ShowsFirstPage(SetItemsPerPage(st, size), filtered)
  {
    FirstPageShown(SetSearchTerm(st, term), filtered);
    FirstPageShown(SetStatusFilter(st, status), filtered);
    FirstPageShown(SetTypeFilter(st, kind), filtered);
    FirstPageShown(SetItemsPerPage(st, size), filtered);
  }

  /** From a page that shows items, the first, previous, next and last
      buttons and every numbered button (pages 1 to totalPages) lead to a
      page that shows items too. */
  lemma NavigationKeepsPageInRange<T>(filtered: seq<T>, page: int, perPage: int)
    requires page >= 1 && perPage >= 1 && Paginate(filtered, page, perPage).items != []
    ensures var tp := Paginate(filtered, page, perPage).totalPages;
            tp >= page && NextPage(page, tp) >= 1 &&
            Paginate(filtered, 1, perPage).items != [] &&
            Paginate(filtered, PreviousPage(page), perPage).items != [] &&
            Paginate(filtered, NextPage(page, tp), perPage).items != [] &&
            Paginate(filtered, tp, perPage).items != [] &&
            forall p :: 1 <= p <= tp ==> Paginate(filtered, p, perPage).items != []
  {
    var tp := Paginate(filtered, page, perPage).totalPages;
    PageNonEmptyIff(filtered, page, perPage);
    forall p | 1 <= p <= tp
      ensures Paginate(filtered, p, perPage).items != []
    {
      PageNonEmptyIff(filtered, p, perPage);
    }
  }

  /** `projects.map(project => project.status)`. */
  function Statuses(projects: seq<Project>): seq<string>
  {
    seq(|projects|, i requires 0 <= i < |projects| => projects[i].status)
  }

  /** `projects.map(project => project.type)`. */
  function Kinds(projects: seq<Project>): seq<string>
  {
    seq(|projects|, i requires 0 <= i < |projects| => projects[i].kind)
  }

  /** The status filter's options: the six open stages in the in-progress
      view, only "completed" in the completed view, and otherwise the
      statuses present, each once, in order of first appearance. */
  function AvailableStatuses(view: View, projects: seq<Project>): (r: seq<string>)
    ensures Seqs.NoDuplicates(r)
    ensures view == InProgress ==> r == Stages[..6]
    ensures view == CompletedOnly ==> r == [Completed]
    ensures view == Overview ==> forall s :: s in r <==> exists i :: 0 <= i < |projects| && projects[i].status == s
    ensures view == Overview ==> Seqs.InFirstOccurrenceOrder(r, Statuses(projects))
  {
    match view
    case InProgress =>
      [Initiation, DesignDevelopment, Prototyping,
       Testing, Production, Delivering]
    case CompletedOnly => [Completed]
    case Overview =>
      var statuses := Statuses(projects);
      assert forall s :: s in statuses <==> exists i :: 0 <= i < |projects| && projects[i].status == s by {
        forall s | s in statuses
          ensures exists i :: 0 <= i < |projects| && projects[i].status == s
        {
          var i :| 0 <= i < |statuses| && statuses[i] == s;
          assert projects[i].status == s;
        }
        forall i | 0 <= i < |projects|
          ensures projects[i].status in statuses
        {
          assert statuses[i] == projects[i].status;
        }
      }
      Seqs.Dedup(statuses)
  }

  /** The type filter's options: each type present, once, in order of first appearance. */
  function ProjectTypes(projects: seq<Project>): (r: seq<string>)
    ensures Seqs.NoDuplicates(r)
    ensures forall t :: t in r <==> exists i :: 0 <= i < |projects| && projects[i].kind == t
    ensures Seqs.InFirstOccurrenceOrder(r, Kinds(projects))
  {
    var kinds := Kinds(projects);
    assert forall t :: t in kinds <==> exists i :: 0 <= i < |projects| && projects[i].kind == t by {
      forall t | t in kinds
        ensures exists i :: 0 <= i < |projects| && projects[i].kind == t
      {
        var i :| 0 <= i < |kinds| && kinds[i] == t;
        assert projects[i].kind == t;
      }
      forall i | 0 <= i < |projects|
        ensures projects[i].kind in kinds
      {
        assert kinds[i] == projects[i].kind;
      }
    }
    Seqs.Dedup(kinds)
  }
}

=== FILE: seqs.dfy ===
/**
 Order-preserving filtering and counting over sequences: the model of
 JavaScript's `Array.prototype.filter` and of `xs.filter(p).length`.
 Filtering is defined from the end of the sequence, which keeps the index
 of every surviving element unchanged in the inductive step.
 */
module Seqs {

  /** `a` is `b` with zero or more elements dropped, order preserved. */
  predicate IsSubsequence<T(==)>(a: seq<T>, b: seq<T>)
    decreases |b|
  {
    a == [] ||
    (b != [] &&
     ((a[|a| - 1] == b[|b| - 1] && IsSubsequence(a[..|a| - 1], b[..|b| - 1])) ||
      IsSubsequence(a, b[..|b| - 1])))
  }

  /** Every sequence is a subsequence of itself. */
  lemma {:induction false} SubsequenceRefl<T>(s: seq<T>)
    ensures IsSubsequence(s, s)
    decreases |s|
  {
    if s != [] {
      SubsequenceRefl(s[..|s| - 1]);
    }
  }

  /** The elements of `s` that satisfy `p`, in their original order. */
  function Filter<T(==,!new)>(s: seq<T>, p: T -> bool): (r: seq<T>)
    ensures |r| <= |s|
    ensures forall i :: 0 <= i < |r| ==> p(r[i])
    ensures forall x :: multiset(r)[x] == if p(x) then multiset(s)[x] else 0
    ensures IsSubsequence(r, s)
  {
    if s == [] then []
    else
      var init, last := s[..|s| - 1], s[|s| - 1];
      assert s == init + [last];
      var rest := Filter(init, p);
      if p(last) then
        assert (rest + [last])[..|rest|] == rest;
        rest + [last]
      else
        rest
  }

  /** `s.filter(p).length`. */
  function Count<T(==,!new)>(s: seq<T>, p: T -> bool): nat
  {
    |Filter(s, p)|
  }

  /** Counting a non-empty sequence: the prefix, plus one if the last element counts. */
  lemma CountLast<T(!new)>(s: seq<T>, p: T -> bool)
    requires s != []
    ensures Count(s, p) == Count(s[..|s| - 1], p) + if p(s[|s| - 1]) then 1 else 0
  {
  }

  /** Filtering distributes over concatenation. */
  lemma {:induction false} FilterAppend<T(!new)>(a: seq<T>, b: seq<T>, p: T -> bool)
    ensures Filter(a + b, p) == Filter(a, p) + Filter(b, p)
    decreases |b|
  {
    if b == [] {
      assert a + b == a;
    } else {
      var b' := b[..|b| - 1];
      assert (a + b)[..|a + b| - 1] == a + b';
      assert (a + b)[|a + b| - 1] == b[|b| - 1];
      FilterAppend(a, b', p);
    }
  }

  /** Nothing is counted exactly when no element satisfies `p`. */
  lemma CountZeroIff<T(!new)>(s: seq<T>, p: T -> bool)
    ensures Count(s, p) == 0 <==> forall i :: 0 <= i < |s| ==> !p(s[i])
  {
    var r := Filter(s, p);
    if r != [] {
      assert multiset(s)[r[0]] > 0;
      assert r[0] in s;
    }
    if exists i :: 0 <= i < |s| && p(s[i]) {
      var i :| 0 <= i < |s| && p(s[i]);
      assert multiset(r)[s[i]] > 0;
    }
  }

  /** Everything is counted exactly when every element satisfies `p`. */
  lemma {:induction false} CountFullIff<T(!new)>(s: seq<T>, p: T -> bool)
    ensures Count(s, p) == |s| <==> forall i :: 0 <= i < |s| ==> p(s[i])
  {
    if s != [] {
      CountFullIff(s[..|s| - 1], p);
      assert forall i :: 0 <= i < |s| - 1 ==> s[..|s| - 1][i] == s[i];
    }
  }

  lemma CountAppend<T(!new)>(a: seq<T>, b: seq<T>, p: T -> bool)
    ensures Count(a + b, p) == Count(a, p) + Count(b, p)
  {
    FilterAppend(a, b, p);
  }

  /** Counting with a predicate and with its negation covers every element once. */
  lemma {:induction false} CountComplement<T(!new)>(s: seq<T>, p: T -> bool, q: T -> bool)
    requires forall x :: q(x) <==> !p(x)
    ensures Count(s, p) + Count(s, q) == |s|
  {
    if s != [] {
      CountComplement(s[..|s| - 1], p, q);
    }
  }

  /** A weaker predicate counts at least as many elements. */
  lemma {:induction false} CountMonotone<T(!new)>(s: seq<T>, p: T -> bool, q: T -> bool)
    requires forall x :: p(x) ==> q(x)
    ensures Count(s, p) <= Count(s, q)
  {
    if s != [] {
      CountMonotone(s[..|s| - 1], p, q);
    }
  }

  /** Two disjoint predicates that both imply `r` count no more together than `r`. */
  lemma {:induction false} CountDisjointWithin<T(!new)>(s: seq<T>, p: T -> bool, q: T -> bool, r: T -> bool)
    requires forall x :: !(p(x) && q(x))
    requires forall x :: (p(x) || q(x)) ==> r(x)
    ensures Count(s, p) + Count(s, q) <= Count(s, r)
  {
    if s != [] {
      CountDisjointWithin(s[..|s| - 1], p, q, r);
    }
  }

  /** Counting by a disjunction of disjoint predicates adds their counts. */
  lemma {:induction false} CountDisjointUnion<T(!new)>(s: seq<T>, p: T -> bool, q: T -> bool, either: T -> bool)
    requires forall x :: !(p(x) && q(x))
    requires forall x :: either(x) <==> p(x) || q(x)
    ensures Count(s, either) == Count(s, p) + Count(s, q)
  {
    if s != [] {
      CountDisjointUnion(s[..|s| - 1], p, q, either);
    }
  }

  /** Filtering by `p` and then by `q` is filtering once by their conjunction. */
  lemma {:induction false} FilterCompose<T(!new)>(s: seq<T>, p: T -> bool, q: T -> bool, both: T -> bool)
    requires forall x :: both(x) <==> p(x) && q(x)
    ensures Filter(Filter(s, p), q) == Filter(s, both)
  {
    if s != [] {
      var init, last := s[..|s| - 1], s[|s| - 1];
      FilterCompose(init, p, q, both);
      var fp := Filter(init, p);
      if p(last) {
        assert (fp + [last])[..|fp|] == fp;
      }
    }
  }

  /** A predicate that holds everywhere filters nothing out. */
  lemma {:induction false} FilterKeepsAll<T(!new)>(s: seq<T>, p: T -> bool)
    requires forall i :: 0 <= i < |s| ==> p(s[i])
    ensures Filter(s, p) == s
  {
    if s != [] {
      FilterKeepsAll(s[..|s| - 1], p);
    }
  }

  /** Filtering depends only on the values of the predicate. */
  lemma {:induction false} FilterExtensional<T(!new)>(s: seq<T>, p: T -> bool, q: T -> bool)
    requires forall x :: p(x) <==> q(x)
    ensures Filter(s, p) == Filter(s, q)
  {
    if s != [] {
      FilterExtensional(s[..|s| - 1], p, q);
    }
  }

  /** No value occurs twice. */
  predicate NoDuplicates<T(==)>(s: seq<T>)
  {
    forall i, j :: 0 <= i < j < |s| ==> s[i] != s[j]
  }

  /** `x` occurs in `s` before the first occurrence of `y`. */
  ghost predicate FirstBefore<T>(s: seq<T>, x: T, y: T)
  {
    exists a :: 0 <= a < |s| && s[a] == x && y !in s[..a + 1]
  }

  /** Each value of `r` occurs in `s` before the first occurrence of every
      value that follows it in `r`. */
  ghost predicate InFirstOccurrenceOrder<T>(r: seq<T>, s: seq<T>)
  {
    forall i, j :: 0 <= i < j < |r| ==> FirstBefore(s, r[i], r[j])
  }

  /** Appending to `s` keeps every "first before" fact about it. */
  lemma FirstBeforeAppend<T>(s: seq<T>, x: T, y: T, z: T)
    requires FirstBefore(s, x, y)
    ensures FirstBefore(s + [z], x, y)
  {
    var a :| 0 <= a < |s| && s[a] == x && y !in s[..a + 1];
    assert (s + [z])[..a + 1] == s[..a + 1];
    assert (s + [z])[a] == x;
  }

  /** A value of `s` comes first before a value `s` does not hold. */
  lemma FirstBeforeNew<T>(s: seq<T>, x: T, z: T)
    requires x in s && z !in s
    ensures FirstBefore(s + [z], x, z)
  {
    var a :| 0 <= a < |s| && s[a] == x;
    assert (s + [z])[..a + 1] == s[..a + 1];
    assert (s + [z])[a] == x;
  }

  /** Extending `s` keeps the order of values already seen, and a value
      not seen before takes its place after all of them. */
  lemma FirstOccurrenceAppend<T>(r: seq<T>, s: seq<T>, x: T)
    requires InFirstOccurrenceOrder(r, s)
    requires forall y :: y in r <==> y in s
    ensures InFirstOccurrenceOrder(r, s + [x])
    ensures x !in r ==> InFirstOccurrenceOrder(r + [x], s + [x])
  {
    forall i, j | 0 <= i < j < |r|
      ensures FirstBefore(s + [x], r[i], r[j])
    {
      FirstBeforeAppend(s, r[i], r[j], x);
    }
    if x !in r {
      var r' := r + [x];
      forall i, j | 0 <= i < j < |r'|
        ensures FirstBefore(s + [x], r'[i], r'[j])
      {
        if j < |r| {
          FirstBeforeAppend(s, r[i], r[j], x);
        } else {
          assert r[i] in r;
          FirstBeforeNew(s, r[i], x);
        }
      }
    }
  }

  /** `[...new Set(s)]`: the first occurrence of every value, in order. */
  function Dedup<T(==,!new)>(s: seq<T>): (r: seq<T>)
    ensures NoDuplicates(r)
    ensures forall x :: x in r <==> x in s
    ensures IsSubsequence(r, s)
    ensures InFirstOccurrenceOrder(r, s)
  {
    if s == [] then []
    else
      var init, last := s[..|s| - 1], s[|s| - 1];
      assert s == init + [last];
      var rest := Dedup(init);
      FirstOccurrenceAppend(rest, init, last);
      if last in rest then rest
      else
        assert (rest + [last])[..|rest|] == rest;
        rest + [last]
  }
}

=== FILE: settings.dfy ===
/**
 The change-password dialog of src/pages/UpdatedSettings.tsx. The handler
 checks, in order, that every field is filled, that the new password is
 typed the same twice, and that it is at least eight characters long; no
 password is sent anywhere.
 */
module PasswordDialog {

  datatype Dialog = Dialog(current: string, newPassword: string, confirmation: string, open: bool)

  datatype Outcome = MissingFields | Mismatch | TooShort | Changed

  datatype ChangeResult = ChangeResult(dialog: Dialog, outcome: Outcome)

  const MinLength := 8

  predicate Filled(d: Dialog)
  {
    d.current != "" && d.newPassword != "" && d.confirmation != ""
  }

  /** `handlePasswordChange`. */
  function ChangePassword(d: Dialog): (r: ChangeResult)
    ensures !Filled(d) ==> r.outcome == MissingFields
    ensures Filled(d) && d.newPassword != d.confirmation ==> r.outcome == Mismatch
    ensures Filled(d) && d.newPassword == d.confirmation && |d.newPassword| < MinLength ==> r.outcome == TooShort
    ensures r.outcome == Changed ==> r.dialog == Dialog("", "", "", false)
    ensures r.outcome != Changed ==> r.dialog == d
  {
    if !Filled(d) then ChangeResult(d, MissingFields)
    else if d.newPassword != d.confirmation then ChangeResult(d, Mismatch)
    else if |d.newPassword| < MinLength then ChangeResult(d, TooShort)
    else ChangeResult(Dialog("", "", "", false), Changed)
  }

  /** The change succeeds exactly when all three checks pass. */
  lemma ChangedIff(d: Dialog)
    ensures ChangePassword(d).outcome == Changed <==>
            Filled(d) && d.newPassword == d.confirmation && |d.newPassword| >= MinLength
  {
  }

  /** Right after a successful change the cleared dialog reports missing fields. */
  lemma ChangeThenMissing(d: Dialog)
    requires ChangePassword(d).outcome == Changed
    ensures ChangePassword(ChangePassword(d).dialog) == ChangeResult(Dialog("", "", "", false), MissingFields)
  {
  }

  /** A rejected attempt can be retried with the same result: errors change nothing. */
  lemma ErrorsAreStable(d: Dialog)
    requires ChangePassword(d).outcome != Changed
    ensures ChangePassword(ChangePassword(d).dialog) == ChangePassword(d)
  {
  }
}

=== FILE: sidebar.dfy ===
/**
 The navigation sidebar of src/components/crm/Sidebar.tsx: the project
 counts shown beside the Projects sub-items, the workspace menu built from
 them, and the list of expanded section titles that `toggleItem` edits.
 Icons are not modelled.
 */
module SidebarNav {
  import Seqs
  import opened ProjectData
  import ProjectsPage
  import DashboardPage

  datatype Counts = Counts(total: nat, inProgress: nat, completed: nat)

  /** `getProjectCounts`. */
  function ProjectCounts(projects: seq<Project>): (c: Counts)
    ensures c.total == |projects|
    ensures c.total == c.inProgress + c.completed
    ensures c.completed == 0 <==> forall i :: 0 <= i < |projects| ==> projects[i].status != Completed
  {
    Seqs.CountComplement(projects, IsOpen, IsCompleted);
    Seqs.CountZeroIff(projects, IsCompleted);
    Counts(|projects|, Seqs.Count(projects, IsOpen), Seqs.Count(projects, IsCompleted))
  }

  /** The sidebar and the dashboard agree on open and completed projects. */
  lemma CountsAgreeWithDashboard(projects: seq<Project>)
    ensures ProjectCounts(projects).inProgress == DashboardPage.ProjectStats(projects).activeProjects
    ensures ProjectCounts(projects).completed == DashboardPage.ProjectStats(projects).completedProjects
  {
  }

  datatype SubItem = SubItem(title: string, url: string, count: nat)

  datatype MenuItem = MenuItem(title: string, url: string, subItems: seq<SubItem>)

  /** `createWorkspaceItems`: only the Projects entry has sub-items, and
      those carry the three counts. */
  function WorkspaceItems(projects: seq<Project>): (items: seq<MenuItem>)
    ensures |items| == 6
    ensures items[2].title == "Projects" && |items[2].subItems| == 3
    ensures items[2].subItems[0] == SubItem("Overview", "/projects", ProjectCounts(projects).total)
    ensures items[2].subItems[1] == SubItem("In Progress", ProjectsPage.InProgressPath, ProjectCounts(projects).inProgress)
    ensures items[2].subItems[2] == SubItem("Completed", ProjectsPage.CompletedPath, ProjectCounts(projects).completed)
    ensures forall k :: 0 <= k < |items| && k != 2 ==> items[k].subItems == []
  {
    var counts := ProjectCounts(projects);
    [ MenuItem("Notifications", "/notifications", []),
      MenuItem("Dashboard", "/dashboard", []),
      MenuItem("Projects", "/projects", [
        SubItem("Overview", "/projects", counts.total),
        SubItem("In Progress", ProjectsPage.InProgressPath, counts.inProgress),
        SubItem("Completed", ProjectsPage.CompletedPath, counts.completed)]),
      MenuItem("Chat", "/chat", []),
      MenuItem("Payment", "/payment", []),
      MenuItem("Invite", "/invite", []) ]
  }

  /** Each Projects sub-item's count is the number of projects the page it
      links to lists when no search or filter is set. */
  lemma SubItemCountsMatchLinkedViews(projects: seq<Project>, company: string, k: int)
    requires 0 <= k < 3
    ensures var sub := WorkspaceItems(projects)[2].subItems[k];
            var c := ProjectsPage.Criteria(ProjectsPage.CurrentView(sub.url), "", company, ProjectsPage.All, ProjectsPage.All);
            sub.count == |ProjectsPage.FilteredProjects(projects, c)|
  {
    var sub := WorkspaceItems(projects)[2].subItems[k];
    var c := ProjectsPage.Criteria(ProjectsPage.CurrentView(sub.url), "", company, ProjectsPage.All, ProjectsPage.All);
    if k == 0 {
      Seqs.FilterKeepsAll(projects, p => ProjectsPage.Selected(c, p));
    } else if k == 1 {
      Seqs.FilterExtensional(projects, IsOpen, p => ProjectsPage.Selected(c, p));
    } else {
      Seqs.FilterExtensional(projects, IsCompleted, p => ProjectsPage.Selected(c, p));
    }
  }

  /** `toggleItem`: a closed section opens at the end of the list; an open
      one is removed wherever it occurs. Other sections are untouched. */
  function Toggle(open: seq<string>, title: string): (r: seq<string>)
    ensures title in r <==> title !in open
    ensures forall t :: t != title ==> (t in r <==> t in open)
    ensures forall t :: t != title ==> multiset(r)[t] == multiset(open)[t]
    ensures title !in open ==> r == open + [title]
    ensures title in open ==> Seqs.IsSubsequence(r, open) && |r| < |open|
  {
    if title in open then
      Seqs.CountComplement(open, t => t != title, t => t == title);
      Seqs.CountZeroIff(open, t => t == title);
      Seqs.Filter(open, t => t != title)
    else
      open + [title]
  }

  /** Toggling keeps the list free of duplicates. */
  lemma ToggleKeepsNoDuplicates(open: seq<string>, title: string)
    requires Seqs.NoDuplicates(open)
    ensures Seqs.NoDuplicates(Toggle(open, title))
  {
    var r := Toggle(open, title);
    if title in open {
      forall i, j | 0 <= i < j < |r|
        ensures r[i] != r[j]
      {
        if r[i] == r[j] {
          SubsequenceDuplicate(r, open, i, j);
        }
      }
    }
  }

  /** A subsequence holding a value twice forces the sequence to hold it twice. */
  lemma {:induction false} SubsequenceDuplicate(a: seq<string>, b: seq<string>, i: int, j: int)
    requires Seqs.IsSubsequence(a, b)
    requires 0 <= i < j < |a| && a[i] == a[j]
    ensures !Seqs.NoDuplicates(b)
    decreases |b|
  {
    var a', b' := a[..|a| - 1], b[..|b| - 1];
    if a[|a| - 1] == b[|b| - 1] && Seqs.IsSubsequence(a', b') {
      if j < |a| - 1 {
        SubsequenceDuplicate(a', b', i, j);
        if Seqs.NoDuplicates(b) {
          NoDuplicatesPrefix(b, b');
        }
      } else {
        var k := SubsequenceMember(a', b', i);
        assert b[k] == b[|b| - 1];
      }
    } else {
      SubsequenceDuplicate(a, b', i, j);
      if Seqs.NoDuplicates(b) {
        NoDuplicatesPrefix(b, b');
      }
    }
  }

  lemma NoDuplicatesPrefix(b: seq<string>, b': seq<string>)
    requires b' <= b && Seqs.NoDuplicates(b)
    ensures Seqs.NoDuplicates(b')
  {
    assert forall i :: 0 <= i < |b'| ==> b'[i] == b[i];
  }

  /** Every element of a subsequence sits somewhere in the sequence. */
  lemma {:induction false} SubsequenceMember(a: seq<string>, b: seq<string>, i: int) returns (k: int)
    requires Seqs.IsSubsequence(a, b) && 0 <= i < |a|
    ensures 0 <= k < |b| && b[k] == a[i]
    decreases |b|
  {
    var a', b' := a[..|a| - 1], b[..|b| - 1];
    if a[|a| - 1] == b[|b| - 1] && Seqs.IsSubsequence(a', b') {
      if i == |a| - 1 {
        k := |b| - 1;
      } else {
        k := SubsequenceMember(a', b', i);
      }
    } else {
      k := SubsequenceMember(a, b', i);
    }
  }

  /** Opening a closed section and toggling it again restores the list exactly. */
  lemma ToggleTwiceFromClosed(open: seq<string>, title: string)
    requires title !in open
    ensures Toggle(Toggle(open, title), title) == open
  {
    Seqs.FilterAppend(open, [title], t => t != title);
    Seqs.FilterKeepsAll(open, t => t != title);
    assert Seqs.Filter([title], t => t != title) == [] by {
      assert [title][..0] == [];
    }
  }

  /** Toggling a title twice leaves the same sections open (the order may change). */
  lemma ToggleTwiceSameMembers(open: seq<string>, title: string)
    ensures forall t :: t in Toggle(Toggle(open, title), title) <==> t in open
  {
  }

  /** The expanded list after a series of toggles from the initial empty list. */
  function ToggleAll(open: seq<string>, titles: seq<string>): seq<string>
    decreases |titles|
  {
    if titles == [] then open else ToggleAll(Toggle(open, titles[0]), titles[1..])
  }

  /** Starting from no open sections, toggling never produces a duplicate. */
  lemma {:induction false} ToggleAllNoDuplicates(open: seq<string>, titles: seq<string>)
    requires Seqs.NoDuplicates(open)
    ensures Seqs.NoDuplicates(ToggleAll(open, titles))
    decreases |titles|
  {
    if titles != [] {
      ToggleKeepsNoDuplicates(open, titles[0]);
      ToggleAllNoDuplicates(Toggle(open, titles[0]), titles[1..]);
    }
  }

  lemma FromEmptyNoDuplicates(titles: seq<string>)
    ensures Seqs.NoDuplicates(ToggleAll([], titles))
  {
    ToggleAllNoDuplicates([], titles);
  }
}

=== FILE: text.dfy ===
/**
 The string operations the pages use: case mapping (`toLowerCase`,
 `toUpperCase`), substring search (`includes`), decimal rendering
 (`String(n)`) and parsing, and splitting on a single separator
 character (`split`). Case mapping covers ASCII letters only.
 */
module Text {
  import Seqs

  function LowerChar(c: char): (r: char)
    ensures 'A' <= c <= 'Z' ==> r as int == c as int + 32
    ensures !('A' <= c <= 'Z') ==> r == c
  {
    if 'A' <= c <= 'Z' then (c as int + 32) as char else c
  }

  function UpperChar(c: char): (r: char)
    ensures 'a' <= c <= 'z' ==> r as int == c as int - 32
    ensures !('a' <= c <= 'z') ==> r == c
  {
    if 'a' <= c <= 'z' then (c as int - 32) as char else c
  }

  /** `s.toLowerCase()`: every character lower-cased in place. */
  function Lower(s: string): (r: string)
    ensures |r| == |s|
    ensures forall i :: 0 <= i < |s| ==> r[i] == LowerChar(s[i])
  {
    seq(|s|, i requires 0 <= i < |s| => LowerChar(s[i]))
  }

  /** `s.toUpperCase()`: every character upper-cased in place. */
  function Upper(s: string): (r: string)
    ensures |r| == |s|
    ensures forall i :: 0 <= i < |s| ==> r[i] == UpperChar(s[i])
  {
    seq(|s|, i requires 0 <= i < |s| => UpperChar(s[i]))
  }

  lemma LowerIdempotent(s: string)
    ensures Lower(Lower(s)) == Lower(s)
  {
  }

  lemma UpperHasNoLowerCase(s: string)
    ensures forall i :: 0 <= i < |Upper(s)| ==> !('a' <= Upper(s)[i] <= 'z')
  {
  }

  /** `t` appears in `s` starting at position `i`. */
  ghost predicate OccursAt(s: string, t: string, i: int)
  {
    0 <= i && i + |t| <= |s| && s[i..i + |t|] == t
  }

  /** `s.includes(t)`. */
  predicate Includes(s: string, t: string)
    decreases |s|
  {
    t <= s || (|s| > 0 && Includes(s[1..], t))
  }

  /** An occurrence anywhere makes `Includes` hold. */
  lemma {:induction false} OccursImpliesIncludes(s: string, t: string, i: int)
    requires OccursAt(s, t, i)
    ensures Includes(s, t)
    decreases i
  {
    if i > 0 {
      assert s[1..][i - 1..i - 1 + |t|] == s[i..i + |t|];
      OccursImpliesIncludes(s[1..], t, i - 1);
    }
  }

  /** `Includes` finds an actual occurrence. */
  lemma {:induction false} IncludesImpliesOccurs(s: string, t: string) returns (i: int)
    requires Includes(s, t)
    ensures OccursAt(s, t, i)
    decreases |s|
  {
    if t <= s {
      i := 0;
    } else {
      var j := IncludesImpliesOccurs(s[1..], t);
      assert s[j + 1..j + 1 + |t|] == s[1..][j..j + |t|];
      i := j + 1;
    }
  }

  /** `Includes` holds exactly when `t` occurs somewhere in `s`. */
  lemma IncludesIffOccurs(s: string, t: string)
    ensures Includes(s, t) <==> exists i :: OccursAt(s, t, i)
  {
    if Includes(s, t) {
      var i := IncludesImpliesOccurs(s, t);
    }
    forall i | OccursAt(s, t, i)
      ensures Includes(s, t)
    {
      OccursImpliesIncludes(s, t, i);
    }
  }

  lemma EmptyIsIncluded(s: string)
    ensures Includes(s, "")
  {
  }

  function DigitChar(d: nat): (c: char)
    requires d < 10
    ensures '0' <= c <= '9'
    ensures c as int - '0' as int == d
  {
    ('0' as int + d) as char
  }

  predicate IsDigit(c: char)
  {
    '0' <= c <= '9'
  }

  /** A canonical decimal numeral: digits only, no leading zero except "0" itself. */
  predicate IsDecimal(s: string)
  {
    |s| > 0 &&
    (forall i :: 0 <= i < |s| ==> IsDigit(s[i])) &&
    (|s| > 1 ==> s[0] != '0')
  }

  /** `String(n)` for a natural number. */
  function NatToString(n: nat): (s: string)
    ensures IsDecimal(s)
  {
    if n < 10 then [DigitChar(n)]
    else
      var prefix := NatToString(n / 10);
      assert prefix[0] != '0' by {
        if |prefix| == 1 {
          assert prefix[0] as int - '0' as int == n / 10;
        }
      }
      prefix + [DigitChar(n % 10)]
  }

  /** The value of a string of digits (read left to right, base ten). */
  function ParseNat(s: string): nat
    requires forall i :: 0 <= i < |s| ==> IsDigit(s[i])
  {
    if s == [] then 0
    else
      assert IsDigit(s[|s| - 1]);
      ParseNat(s[..|s| - 1]) * 10 + (s[|s| - 1] as int - '0' as int)
  }

  /** Rendering a number and reading it back gives the number. */
  lemma {:induction false} ParseNatToString(n: nat)
    ensures ParseNat(NatToString(n)) == n
  {
    if n >= 10 {
      var s := NatToString(n);
      ParseNatToString(n / 10);
      assert s[..|s| - 1] == NatToString(n / 10);
    }
  }

  /** Distinct numbers render as distinct strings. */
  lemma NatToStringInjective(m: nat, n: nat)
    requires m != n
    ensures NatToString(m) != NatToString(n)
  {
    ParseNatToString(m);
    ParseNatToString(n);
  }

  /** `s.split([sep])`: the pieces between occurrences of `sep`. */
  function Split(s: string, sep: char): (pieces: seq<string>)
    ensures |pieces| >= 1
    ensures forall k :: 0 <= k < |pieces| ==> sep !in pieces[k]
  {
    if s == [] then [[]]
    else
      var rest := Split(s[1..], sep);
      if s[0] == sep then [[]] + rest
      else [[s[0]] + rest[0]] + rest[1..]
  }

  /** `pieces.join([sep])`. */
  function Join(pieces: seq<string>, sep: char): string
  {
    if pieces == [] then []
    else if |pieces| == 1 then pieces[0]
    else pieces[0] + [sep] + Join(pieces[1..], sep)
  }

  /** Joining the pieces of a split with the same separator gives back the string. */
  lemma {:induction false} JoinSplit(s: string, sep: char)
    ensures Join(Split(s, sep), sep) == s
  {
    if s != [] {
      var rest := Split(s[1..], sep);
      JoinSplit(s[1..], sep);
      if s[0] == sep {
        assert ([[]] + rest)[1..] == rest;
      } else {
        var ps := [[s[0]] + rest[0]] + rest[1..];
        if |rest| > 1 {
          assert ps[1..] == rest[1..];
          assert Join(rest, sep) == rest[0] + [sep] + Join(rest[1..], sep);
        }
      }
      assert s == [s[0]] + s[1..];
    }
  }

  /** Splitting yields one more piece than there are separators. */
  lemma {:induction false} SplitPieceCount(s: string, sep: char)
    ensures |Split(s, sep)| == Seqs.Count(s, c => c == sep) + 1
  {
    if s != [] {
      SplitPieceCount(s[1..], sep);
      Seqs.CountAppend([s[0]], s[1..], c => c == sep);
      assert [s[0]] + s[1..] == s;
      assert Seqs.Count([s[0]], c => c == sep) == (if s[0] == sep then 1 else 0) by {
        assert [s[0]][..0] == [];
      }
    }
  }

  /** Splitting around one separator splits each side separately. */
  lemma {:induction false} SplitConcat(a: string, b: string, sep: char)
    ensures Split(a + [sep] + b, sep) == Split(a, sep) + Split(b, sep)
  {
    if a == [] {
      assert a + [sep] + b == [sep] + b;
      assert ([sep] + b)[1..] == b;
    } else {
      var s := a + [sep] + b;
      assert s[1..] == a[1..] + [sep] + b;
      SplitConcat(a[1..], b, sep);
    }
  }

  lemma UpperAppend(a: string, b: string)
    ensures Upper(a + b) == Upper(a) + Upper(b)
  {
  }

  /** The part of an ISO-8601 timestamp before its first 'T' (`iso.split('T')[0]`). */
  function DatePart(iso: string): (d: string)
    ensures d <= iso
    ensures 'T' !in d
    ensures |d| < |iso| ==> iso[|d|] == 'T'
  {
    SplitHead(iso, 'T');
    Split(iso, 'T')[0]
  }

  /** The first piece of a split is the longest separator-free prefix. */
  lemma {:induction false} SplitHead(s: string, sep: char)
    ensures Split(s, sep)[0] <= s
    ensures |Split(s, sep)[0]| < |s| ==> s[|Split(s, sep)[0]|] == sep
  {
    if s != [] && s[0] != sep {
      SplitHead(s[1..], sep);
    }
  }
}
